=== FILE: README.md ===
# stickybits in Dafny

This project models the decision logic of stickybits. stickybits is a polyfill that makes an element stick to the top (or bottom) of its scroll container while its parent is in view, and then "stuck" to the parent's bottom edge. Each DOM read is a plain integer. Each DOM write updates a pure record: the element's class attribute and its inline style map.

Modules, one per component of `dist/stickybits.js` plus one for the older `src/stickybits.js`:

- `Dom` (dom.dfy): `Option`, the inline style map, and the CSS length `n + 'px'`.
  - A style property that was never written reads as the empty string (`StyleOf`).
- `ClassTokens` (class_tokens.dfy): `toggleClasses` on the class attribute string.
  - `split(' ')` and `join(' ')` are modelled exactly, including the empty tokens that doubled spaces produce.
  - `a` is pushed only when it is truthy and not yet a token.
  - Only the first occurrence of `r` is spliced out.
- `Config` (config.dfy): option defaulting in the `Stickybits` constructor.
  - Every option is read as `o.x || default`.
  - `positionVal` falls back to `fixed`.
  - `paddingPosition` mirrors `verticalPosition`.
- `Offsets` (offsets.dfy): `computeScrollOffsets`, which computes start, stop, offset and the additional-class thresholds.
- `StateMachine` (state_machine.dfy): `manageState`, which covers:
  - the three-state decision with guard priority;
  - each branch's class and style effects;
  - the modifier-class loop.
- `Lifecycle` (lifecycle.dfy): the life of one instance.
  - The constructor's per-element body and `addInstance`.
  - The scroll handler `stateContainer`, with a sequence of geometry readings as the scroll history.
  - The teardown `removeInstance`.
  - Registration and ticks as the code is written for a selector container, which reads the option string instead of the container element (`Outcome`).
  - A concrete scroll-down-and-back scenario.
- `Legacy` (legacy.dfy): the per-element setup and the `stickiness` handler of `src/stickybits.js`.
  - The class list is a sequence of tokens: `add` appends a token only when it is absent, and `remove` drops every occurrence.
  - What the free identifier `stop` on line 83 compares as is a parameter (`StuckBound`).

Where the code behaves differently from what its comments suggest, the model follows the code:

- Stuck never goes straight back to default. Scrolling from stuck to above the start leaves the state stuck (`StateMachine.JumpsKeepState`, `Lifecycle.ScenarioStayStuck`).
- Entering stuck pins the element (`bottom: 0`, `position: absolute`) only for `fixed` positioning with styles on. With native sticky positioning, only the classes change (`StateMachine.EnteringStuck`).
- `stickyStart <= stickyStop` is not guaranteed. It holds exactly when the parent is at least as tall as the element less the offset (`Offsets.StartNotAfterStop`).
- Teardown clears `position` and the sticky edge. It leaves `bottom` and the parent's padding as they were (`Lifecycle.RemoveInstance`).

## Model

| member | source | states |
|---|---|---|
| `Dom.Px` | dist/stickybits.js:786 | the written length ends in `px`; the text before it is the canonical decimal numeral of the number (digits only after an optional minus sign, no leading zero, no `-0`) and its value is the number |
| `Dom.PxInjective` | dist/stickybits.js:786 | different numbers are written as different lengths |
| `Dom.IntToString` | dist/stickybits.js:786 | the decimal text of an integer is canonical (digits only after a minus sign present exactly for negative numbers, no leading zero, no `-0`) and denotes the integer |
| `Dom.NatToStringValue` | dist/stickybits.js:786 | the digits written for a natural number denote that number |
| `Dom.NatToString` | dist/stickybits.js:786 | a natural number is written as digits with no leading zero, and as `0` exactly for zero |
| `ClassTokens.Split` | dist/stickybits.js:712 | `split(' ')` always yields at least one token |
| `ClassTokens.SplitSpaceFree` | dist/stickybits.js:712 | no token produced by `split(' ')` contains a space |
| `ClassTokens.JoinSplit` | dist/stickybits.js:712-716 | joining the split attribute rebuilds it character for character |
| `ClassTokens.SplitJoin` | dist/stickybits.js:716 | joining a non-empty list of space-free tokens gives an attribute that splits back into exactly those tokens |
| `ClassTokens.SplitConcat` | dist/stickybits.js:632 | splitting `s + ' ' + t` splits each side on its own, so appending a class appends tokens |
| `ClassTokens.SplitToken` | dist/stickybits.js:712 | a space-free string is a single token |
| `ClassTokens.IndexOf` | dist/stickybits.js:713-714 | `indexOf` is -1 exactly when the token is absent, otherwise the first position holding it |
| `ClassTokens.Push` | dist/stickybits.js:713 | a truthy `a` ends up present, appended at the end only when it was absent; a falsy or present `a` changes nothing |
| `ClassTokens.Splice` | dist/stickybits.js:714-715 | an absent `r` changes nothing; otherwise exactly its first occurrence is cut out, with the tokens before and after kept in order |
| `ClassTokens.ToggleClasses` | dist/stickybits.js:710-717 | for an added name `a` without spaces (or none), the new attribute splits into the pushed-then-spliced token list; with `a` null or present and `r` absent the attribute is unchanged |
| `ClassTokens.ToggleOtherCount` | dist/stickybits.js:710-717 | the number of occurrences of any class other than `r` and `a` is unchanged |
| `ClassTokens.ToggleAddedCount` | dist/stickybits.js:713 | after adding a valid class it is present, and if it occurred at most once before it still occurs at most once |
| `ClassTokens.ToggleRemovedCount` | dist/stickybits.js:714-715 | removing a class that occurred at most once leaves no occurrence |
| `ClassTokens.ToggleNoRaise` | dist/stickybits.js:710-717 | a class other than `a` never gains occurrences |
| `ClassTokens.ToggleKeepsNoDuplicates` | dist/stickybits.js:710-717 | an attribute without repeated classes keeps that property |
| `ClassTokens.ToggleKeepsUnmanaged` | dist/stickybits.js:710-717 | with `r` and `a` among the managed classes, all other classes stay in place and in order |
| `ClassTokens.AppendThenRemove` | dist/stickybits.js:710-717 | appending `' ' + c` to an attribute lacking `c` and then toggling `c` off restores the attribute exactly |
| `ClassTokens.RemoveFirstOfTwo` | dist/stickybits.js:710-717 | toggling `c` off an attribute ending in two copies of `c` removes the first and keeps the second |
| `ClassTokens.AppendClass` | dist/stickybits.js:710-717 | adding an absent non-empty name while removing an absent class appends `' ' + a`, spaces in `a` included |
| `ClassTokens.SwapLastClass` | dist/stickybits.js:710-717 | `tC(e, c, a)` on an attribute ending in `c` replaces that final `c` by `a` |
| `Config.Resolve` | dist/stickybits.js:536-555 | a missing or empty option takes its default (the three default class names, top edge, offset 0, the window, no sticky classes) and any other given one is kept (class names, `verticalPosition`, `scrollEl`, `additionalClasses`, the offset), so class names and positions are never empty; `useStickyClasses` holds exactly when set to true; `positionVal` is the probe result, or `fixed` when the probe reads empty; `paddingTop` exactly for a top edge and `paddingBottom` otherwise |
| `Config.OrWindow` | dist/stickybits.js:540 | the container is the window exactly when the option is missing, the window, or the empty selector; otherwise it is the given one |
| `Config.PaddingPosition` | dist/stickybits.js:555 | the padding property is `paddingTop` for a top edge and `paddingBottom` for any other edge |
| `Config.ResolveSettled` | dist/stickybits.js:536-555 | defaulting is settled after one pass: the resolved values passed back as options resolve to the same props |
| `Lifecycle.ResolveValidClasses` | dist/stickybits.js:536-545 | the resolved props meet `ValidClasses`, which the run and teardown properties assume, exactly when each class option is missing, empty or one token, sticky and stuck resolve to different names, and the additional classes are distinct tokens |
| `Config.NoOptionsResolve` | dist/stickybits.js:536-555 | no options and a failed probe give the default classes, top edge, zero offset and `fixed` positioning |
| `Offsets.ComputeScrollOffsets` | dist/stickybits.js:676-701 | window or non-fixed: start is scroll plus parent top and the offset is the option; custom container with `fixed`: start is parent top minus container top and the offset adds the container top; stop less start is parent height less element height plus offset; one threshold per additional class, `start + delta` |
| `Offsets.ModifierNamesMatchOptions` | dist/stickybits.js:694-699 | the modifier list is rebuilt with exactly the configured class names, in order, whatever the geometry of the tick |
| `Offsets.WindowStartIsStable` | dist/stickybits.js:682-685 | for the window container, start and stop are document coordinates and do not move as the page scrolls |
| `Offsets.StartNotAfterStop` | dist/stickybits.js:692 | the sticky range is non-empty if and only if the parent is at least as tall as the element less the offset |
| `StateMachine.NextState` | dist/stickybits.js:769-771 | never default to stuck nor stuck to default; sticky only strictly inside the range; leaving to default only at or above the start; becoming stuck only at or past the stop |
| `StateMachine.NextStateTable` | dist/stickybits.js:769-806 | each row of the transition table, including default winning over stuck when both exits hold |
| `StateMachine.NextStateIdempotent` | dist/stickybits.js:769-771 | a second decision at the same scroll position keeps the state |
| `StateMachine.JumpsKeepState` | dist/stickybits.js:769-771 | jumping past the whole range from default, or above it from stuck, leaves the state unchanged |
| `StateMachine.StickyElementStyle` | dist/stickybits.js:783-786 | position takes the resolved value (unless the sticky edge is itself `position`); unless styles are off, `bottom` is cleared and the sticky edge gets the offset; no property other than `position`, `bottom` and the sticky edge changes |
| `StateMachine.StickyParentStyle` | dist/stickybits.js:787 | with styles on and `fixed` positioning the parent padding is the element's height; otherwise the parent style is unchanged |
| `StateMachine.DefaultElementStyle` | dist/stickybits.js:793 | position is cleared only under `fixed` positioning |
| `StateMachine.DefaultParentStyle` | dist/stickybits.js:794 | the parent padding is cleared whatever the positioning |
| `StateMachine.StuckElementStyle` | dist/stickybits.js:800-803 | only under `fixed` with styles on: `top` cleared, `bottom: 0`, `position: absolute`; otherwise unchanged |
| `StateMachine.StuckParentStyle` | dist/stickybits.js:800-804 | only under `fixed` with styles on is the parent padding set to the element's height |
| `StateMachine.EnterSticky` | dist/stickybits.js:779-788 | the notSticky branch sets the sticky state and touches only the element's position-related styles and the parent padding |
| `StateMachine.EnterDefault` | dist/stickybits.js:789-795 | the isSticky branch sets the default state and touches only the element's position-related styles and the parent padding |
| `StateMachine.EnterStuck` | dist/stickybits.js:796-806 | the isStuck branch sets the stuck state and touches only the element's position-related styles and the parent padding |
| `StateMachine.ApplyTransition` | dist/stickybits.js:769-806 | the new state is the decided one; if no guard fires nothing changes; otherwise props, thresholds and the parent's classes stay and only position-related element styles and the parent padding can change |
| `StateMachine.ManageState` | dist/stickybits.js:727-819 | same state decision and style effects as the transition; the modifier loop only touches the element's classes |
| `StateMachine.ModifiersPresentIff` | dist/stickybits.js:808-816 | after the loop, each modifier class is present if and only if the scroll position has reached its threshold |
| `StateMachine.ToggleModifier` | dist/stickybits.js:810-814 | a valid class whose threshold the scroll has reached is present afterwards; a class whose presence already matches the comparison is left as it is |
| `StateMachine.ModifiersSettled` | dist/stickybits.js:808-816 | when every modifier class already matches its threshold, the loop changes nothing |
| `StateMachine.ModifiersKeepUnmanaged` | dist/stickybits.js:808-816 | the loop leaves every class it does not name in place and in order |
| `StateMachine.ModifierClassesFollowScroll` | dist/stickybits.js:808-816 | after `manageState` each modifier class is present if and only if `scroll >= threshold`, whatever the primary state |
| `StateMachine.ManageStateKeepsNoDuplicates` | dist/stickybits.js:727-819 | `manageState` never duplicates a class |
| `StateMachine.ManageStateIdempotent` | dist/stickybits.js:727-819 | a second `manageState` at the same scroll position and thresholds changes nothing |
| `StateMachine.StickyClassEffect` | dist/stickybits.js:782 | `tC(e, stuck, sticky)` leaves sticky present and stuck absent |
| `StateMachine.StuckClassEffect` | dist/stickybits.js:799 | `tC(e, sticky, stuck)` leaves stuck present and sticky absent |
| `StateMachine.EnteringSticky` | dist/stickybits.js:779-788 | entering sticky adds the sticky class, removes the stuck class, sets the position, and (styles on) clears `bottom`, sets the edge offset and, for `fixed`, the parent padding |
| `StateMachine.EnteringDefault` | dist/stickybits.js:789-795 | leaving sticky upwards removes the sticky class, clears the parent padding, and clears the position only for `fixed` |
| `StateMachine.EnteringStuck` | dist/stickybits.js:796-806 | leaving sticky downwards swaps sticky for stuck; pins the element only for `fixed` with styles on, otherwise no style changes |
| `StateMachine.ManageStateKeepsUnmanaged` | dist/stickybits.js:727-819 | every class other than sticky, stuck and the modifiers stays in place and in order |
| `Lifecycle.FreshOffsetsWellFormed` | dist/stickybits.js:694-699 | recomputed modifiers carry distinct single-token names when the options do |
| `Lifecycle.StateContainer` | dist/stickybits.js:638-641 | a tick recomputes the offsets from the current geometry and decides the state against the fresh thresholds; the parent's classes stay |
| `Lifecycle.AddInstance` | dist/stickybits.js:623-645 | the parent gets `' ' + parentClass`; the instance is a window instance exactly when `scrollEl` is the window; it starts sticky exactly when the scroll is strictly inside the fresh range, and never stuck |
| `Lifecycle.Run` | dist/stickybits.js:638-643 | any number of ticks keep the props, container kind and parent's classes |
| `Lifecycle.RunKeepsNoDuplicates` | dist/stickybits.js:638-641 | no run of ticks duplicates a class |
| `Lifecycle.RunModifiersFollowScroll` | dist/stickybits.js:638-641 | after any run, each additional class is present if and only if the last scroll position reached its threshold |
| `Lifecycle.RunKeepsUnmanaged` | dist/stickybits.js:638-641 | no run of ticks moves or drops a class the library does not manage |
| `Lifecycle.StripStateClasses` | dist/stickybits.js:833-834 | with neither the sticky nor the stuck class present, the class attribute is unchanged |
| `Lifecycle.RemoveModifiersAbsent` | dist/stickybits.js:836-838 | with none of the modifier classes present, the teardown loop leaves the class attribute unchanged |
| `Lifecycle.TeardownClassesAbsent` | dist/stickybits.js:833-838 | an attribute holding none of the sticky, stuck and modifier classes comes through the teardown class changes as it was |
| `Lifecycle.RemoveInstance` | dist/stickybits.js:826-839 | position and the sticky edge read empty; all other element styles (including `bottom`) and the whole parent style are untouched |
| `Lifecycle.TeardownRemovesManaged` | dist/stickybits.js:826-839 | after teardown, the sticky, stuck and modifier classes are off the element and the parent class is off the parent |
| `Lifecycle.TeardownKeepsUnmanaged` | dist/stickybits.js:826-839 | teardown leaves every unmanaged class in place and in order |
| `Lifecycle.TeardownRestoresParentClass` | dist/stickybits.js:835 | registration, any ticks and teardown give the parent back exactly its original class attribute |
| `Lifecycle.TeardownIdempotent` | dist/stickybits.js:826-839 | a second teardown changes nothing, when no class occurs twice on the element and the parent class occurs at most once on the parent |
| `Lifecycle.SharedParentTeardown` | dist/stickybits.js:826-839 | a parent holding the parent class twice, as two instances sharing it leave it (each appends it at dist/stickybits.js:632), loses one copy per teardown, so a second teardown of one instance strips the other's copy and is not a no-op |
| `Lifecycle.Register` | dist/stickybits.js:562-575 | with native sticky positioning and no sticky classes requested there is no instance, only `position` (and `top`) set; otherwise an instance with the parent class appended, which is a window instance exactly when `scrollEl` is the window |
| `Lifecycle.RegisterThenRemove` | dist/stickybits.js:562-575 | a managed registration, any ticks and the teardown (dist/stickybits.js:826-839) give the parent back its class attribute when the parent class is a token not already there |
| `Lifecycle.RegisterReady` | dist/stickybits.js:562-575 | a managed registration of valid class names on an element without repeated classes keeps both, so the run and teardown properties apply to it |
| `Lifecycle.ScrollScenario` | dist/stickybits.js:769-806 | range 100 to 400: default at 50, sticky at 200, stuck at 450, still stuck at 30, sticky at 200, default at 30 with the original classes |
| `Lifecycle.ScenarioStick` | dist/stickybits.js:779-788 | in that scenario, sticky means `position: fixed`, `top: 0px` and a 50px parent padding |
| `Lifecycle.ScenarioStuck` | dist/stickybits.js:796-806 | in that scenario, stuck means `bottom: 0` and `position: absolute` |
| `Lifecycle.ScenarioStayStuck` | dist/stickybits.js:769-771 | in that scenario, a stuck element scrolled back above the start stays stuck and nothing changes |
| `Lifecycle.ScenarioUnstick` | dist/stickybits.js:789-795 | in that scenario, a sticky element scrolled above the start gets its original classes back, its position cleared and the parent padding cleared |
| `Lifecycle.ContainerOffsetScenario` | dist/stickybits.js:684-690 | a container 20px down with a configured offset of 10 gives an offset of 30 |
| `Lifecycle.AddInstanceAsWritten` | dist/stickybits.js:631-690 | as written, a window container registers normally; a selector container with `fixed` positioning throws after the parent class was appended; any other selector container leaves the element inert with its style untouched; no modifier class that occurred at most once is left on it, and the attribute is unchanged when none was there |
| `Lifecycle.TickAsWritten` | dist/stickybits.js:742-816 | as written, a live instance takes its normal tick, an inert one keeps its style and parent and is left with none of its modifier classes that occurred at most once, and a failed registration has no handler |
| `Lifecycle.RunAsWritten` | dist/stickybits.js:638-643 | over any readings, the outcome keeps its kind and a live instance follows `Run` |
| `Lifecycle.SelectorNeverSticks` | dist/stickybits.js:679-690 | as written, with a selector container and any scroll history, either registration threw or the element's style is never written and no class of it (the sticky class included) ever gains an occurrence |
| `Lifecycle.SelectorScenario` | dist/stickybits.js:679-690 | a native-sticky element in container `.scroller` whose range, measured against the container, is 50 to 350 at scroll 150 is sticky as intended and inert, without its sticky class, as written |
| `Legacy.AddClass` | src/stickybits.js:73 | `classList.add` makes the class present and changes no other membership |
| `Legacy.RemoveClass` | src/stickybits.js:68 | `classList.remove` makes the class absent and changes no other membership |
| `Legacy.LegacyStop` | src/stickybits.js:61-62 | the stop is the start plus the parent's height less the element's |
| `Legacy.SetupStickybit` | src/stickybits.js:18-63 | no handler exactly when native sticky was detected and `fixedSticky` is off; otherwise thresholds from the setup readings, `stickyBitCss` is the detected value or `fixed`, the handler keeps the offset (0 when unset) and the custom-vertical-position flag, and the parent gets its class; only `position` and `top` are written; without `fixedOnly` the element's position is the probe result, with it the style is untouched; with native sticky, `top` is the offset without a custom vertical position, cleared with one under `fixedSticky`, and untouched with one when `fixedSticky` is off; without native sticky `top` is untouched |
| `Legacy.SetupMatchesOffsets` | src/stickybits.js:61-62 | for an element at the top of its parent measured at scroll 0, the legacy start is the start dist computes for a window container (dist/stickybits.js:676-701), the offsets agree, and dist's stop is the legacy stop moved down by the offset |
| `Legacy.Stickiness` | src/stickybits.js:64-92 | above the start the sticky class and position go (or nothing changes), with no other style written and the stuck class as it was; strictly inside, sticky present, stuck absent, position is `stickyBitCss`, `bottom` cleared if it was stuck and otherwise kept, `top` at the offset unless a custom vertical position keeps it; stuck is newly added only when the comparison `scroll > stop` holds; no other class changes and only `position`, `bottom` and `top` are written |
| `Legacy.BoundaryGap` | src/stickybits.js:66-72 | at exactly the start, and at exactly the stop, no branch fires |
| `Legacy.StuckBranch` | src/stickybits.js:83-89 | past the range, the stuck branch fires only when the stuck class is absent, and then swaps classes and pins the element |
| `Legacy.StickinessExclusive` | src/stickybits.js:64-92 | a tick never leaves both the sticky and stuck classes on |
| `Legacy.LegacyRun` | src/stickybits.js:64-93 | over any scroll history, sticky and stuck are never on together, other classes stay, only `position`, `bottom` and `top` are written, and stuck is gained only if some tick scrolled beyond `stop` (so never as written, when `stop` is not a number) |
| `Legacy.AsWrittenStaysSticky` | src/stickybits.js:83 | the concrete case in the Findings table stays sticky past its parent |
| `Legacy.StickinessIntended` | src/stickybits.js:83-89 | with the guard against `stickyBitStop`, scrolling past a non-empty range adds stuck, removes sticky and pins the element |
| `Legacy.IntendedRoundTrip` | src/stickybits.js:72-89 | with the corrected guard, past the stop is stuck and back inside is sticky again |
| `Legacy.IntendedMatchesDist` | src/stickybits.js:66-89 | on a non-empty range, a corrected legacy tick and the dist state decision (dist/stickybits.js:769-771) give the same state except exactly when a sticky element is at the start or the stop (legacy stays sticky) or a default element is past the stop (legacy goes stuck at once, dist stays default) |

## Left out

- The vendored lodash code (`debounce`, `now`, `toNumber`; dist/stickybits.js:32-478) is timer-based rate limiting. A scroll history is a sequence of readings, each handled in full (`Lifecycle.Run`).
- `requestAnimationFrame` deferral (dist/stickybits.js:753-758, src/stickybits.js:93): each branch's effects happen at once, before the modifier loop.
  - With a real window rAF, the primary class change lands after the modifier toggles, so the order of tokens in the class attribute can differ.
  - A frame still pending when `removeInstance` runs lands afterwards and puts the sticky or stuck class and the position styles back.
- The sticky-support probe (`definePosition`, dist/stickybits.js:587-597; src/stickybits.js:28-32) writes to a live style object. Its result is the `probe` parameter.
- `getClosestParent` (dist/stickybits.js:655-665) is DOM traversal. It resolves the selector with `querySelector` and walks up from the element. The walk fails when the container is not an ancestor, and an element given as `scrollEl` makes `querySelector` throw; neither failure is modelled.
- `Offsets.ComputeScrollOffsets`: for a selector `scrollEl`, `scroll` and `containerTop` are taken to be the resolved container's `scrollTop` and top edge, as evidently intended. The code reads both from the option string itself, which `Lifecycle.AddInstanceAsWritten` models (see Findings).
- Event wiring and `cleanup` (dist/stickybits.js:847-855) are not modelled.
  - `cleanup` calls `removeEventListener` on the `scrollEl` option before each `removeInstance`. For a selector string that call throws, so nothing is torn down.
  - For the window it detaches nothing, because it passes a newly debounced function, not the one that was attached.
  - It then sets `manageState` to `false`, so every later tick recomputes the offsets and throws before changing the page.
  - Only the per-instance `removeInstance` is modelled (`Lifecycle.RemoveInstance`).
- Target resolution with `querySelectorAll`, the element loop and the jQuery/Zepto plugin (src/stickybits.js:96-114) are iteration over elements. `Lifecycle.Register` and `Legacy.SetupStickybit` model one element.
- `scrollY || pageYOffset` of the window and `scrollTop` of the resolved container are one integer `scroll`. Every rectangle and height is an integer; fractional pixels are not modelled.
- `Dom.Px`: numbers are written as plain decimal integers. JavaScript writes exponent form from 10^21 on, and writes fractions; neither is modelled.
- `Legacy.Stickiness`: `scroll` is the `scrollY` of the window. For an element given as `scrollTarget`, the listener at src/stickybits.js:93 calls `scrollTarget.requestAnimationFrame`, which elements do not have, so each scroll event throws before `stickiness` runs and the element never changes; this case is not modelled.
- `version` and `userAgent` are left out, and so is the `console.log` on src/stickybits.js:42.
- Option values are typed: booleans, integers, strings, and `additionalClasses` as an ordered list of (class, delta) pairs in key order. Non-boolean truthy values are not modelled.
- `StateMachine.ModifiersPresentIff`, `StateMachine.ModifierClassesFollowScroll`, `StateMachine.ManageStateIdempotent` and `Lifecycle.TeardownRemovesManaged` assume `WellFormed` class names (the sticky, stuck and modifier names are non-empty and space-free, and the modifier names are distinct) and no repeated classes beforehand. With a space in a class name, `toggleClasses` adds a string that splits into several tokens, so these properties do not hold.
- `ClassTokens.ToggleClasses`: the token-list contract covers an added name without spaces. A name with spaces (for example `stickyClass: 'is sticky'`) is joined in as written and splits into several tokens; only `ClassTokens.AppendClass` states that case, for an absent name.
- `ClassTokens.Split`: its own contract gives only the token count bound. Its meaning is stated by `JoinSplit`, `SplitJoin`, `SplitConcat` and `SplitToken`.
- `Lifecycle.TeardownIdempotent`: promised only when the parent class occurs at most once on the parent. Two sticky elements sharing a parent, or a page that already put the class there, leave it twice; a second `removeInstance` then strips the remaining copy (`Lifecycle.SharedParentTeardown`).
- `Lifecycle.Register`: for the managed branch the contract states the parent class, the state bound and which element styles may change. The exact element styles are those of `AddInstance`.

## Findings

| source | as written | input that shows it | evidently intended | confidence | as-written member | corrected member |
|---|---|---|---|---|---|---|
| src/stickybits.js:83 | the stuck guard is `scroll > stop`, and `stop` is not defined in `stickybit`; in a browser it resolves to `window.stop`, a function, so the comparison is always false and the stuck branch never fires | start 0, parent 100 tall, element 10 tall (`stickyBitStop` 90), element sticky with `position: fixed`, scroll 200: the element stays sticky and fixed past the end of its parent | `scroll > stickyBitStop` | high; not executed | `Legacy.AsWrittenStaysSticky` | `Legacy.StickinessIntended` |
| dist/stickybits.js:679-690 | `computeScrollOffsets` (and `manageState` on line 768) read `scrollTop` and `getBoundingClientRect` from the `scrollEl` option, a selector string, not from the container element `addInstance` resolved on line 635 | `scrollEl` `.scroller`, native sticky with sticky classes, container scrolled 150, parent top at -100, parent 350 tall, element 50 tall: measured against the container the range is 50 to 350 and the element is sticky; as written the scroll is `undefined`, every threshold is `NaN` and the element never gets its sticky class; with `fixed` positioning registration throws instead | measure against the resolved container element | medium; not executed | `Lifecycle.SelectorScenario` | `Lifecycle.AddInstance` |

=== FILE: class_tokens.dfy ===
/**
  The class-attribute helper `toggleClasses` of dist/stickybits.js.

  It works on the `className` string, not on a class set: the string is cut at
  every single space (so `"a  b"` and `""` yield empty tokens), `a` is pushed when
  it is truthy and not yet a token, the FIRST occurrence of `r` is spliced out, and
  the tokens are glued back with single spaces.
*/
module ClassTokens {
  import opened Dom

  /** A class name that `toggleClasses` can add and that survives a join/split round trip. */
  predicate ValidToken(c: string)
  {
    c != "" && ' ' !in c
  }

  /** No token holds a space. */
  predicate SpaceFree(ts: seq<string>)
  {
    forall i :: 0 <= i < |ts| ==> ' ' !in ts[i]
  }

  /** `s.split(' ')`: the pieces between single spaces, always at least one. */
  function Split(s: string): (ts: seq<string>)
    ensures |ts| >= 1
    decreases |s|
  {
    if |s| == 0 then [""]
    else
      var rest := Split(s[1..]);
      if s[0] == ' ' then [""] + rest
      else [[s[0]] + rest[0]] + rest[1..]
  }

  /** No token that `split(' ')` yields holds a space. */
  lemma {:induction false} SplitSpaceFree(s: string)
    ensures SpaceFree(Split(s))
    decreases |s|
  {
    if |s| > 0 {
      SplitSpaceFree(s[1..]);
      var rest := Split(s[1..]);
      if s[0] != ' ' {
        assert ' ' !in [s[0]] + rest[0];
        forall k | 0 < k < |Split(s)| ensures ' ' !in Split(s)[k] {
          assert Split(s)[k] == rest[k];
        }
      } else {
        forall k | 0 < k < |Split(s)| ensures ' ' !in Split(s)[k] {
          assert Split(s)[k] == rest[k - 1];
        }
      }
    }
  }

  /**
    `ts.join(' ')`: the tokens in order, one space between neighbours.
    Splitting it again gives the tokens back when none holds a space
    (`SplitJoin`).
  */
  function Join(ts: seq<string>): string
    decreases |ts|
  {
    if |ts| == 0 then ""
    else if |ts| == 1 then ts[0]
    else ts[0] + " " + Join(ts[1..])
  }

  /** Splitting the join of a non-empty list of space-free tokens gives the tokens back. */
  lemma {:induction false} SplitJoin(ts: seq<string>)
    requires |ts| >= 1 && SpaceFree(ts)
    ensures Split(Join(ts)) == ts
    decreases |ts|
  {
    SplitToken(ts[0]);
    if |ts| > 1 {
      assert forall i :: 0 <= i < |ts[1..]| ==> ts[1..][i] == ts[i + 1];
      SplitJoin(ts[1..]);
      SplitConcat(ts[0], Join(ts[1..]));
      assert ts == [ts[0]] + ts[1..];
    }
  }

  /** How many times `c` is a token of the class attribute `s`. */
  function Count(s: string, c: string): nat
  {
    multiset(Split(s))[c]
  }

  /** No non-empty token occurs twice in `s`. */
  ghost predicate NoDuplicates(s: string)
  {
    forall c :: c != "" ==> Count(s, c) <= 1
  }

  /** An empty token list joins to `""`, which splits back to one empty token. */
  function Normalize(ts: seq<string>): seq<string>
  {
    if |ts| == 0 then [""] else ts
  }

  /** Splitting undoes joining: the class attribute is rebuilt character for character. */
  lemma {:induction false} JoinSplit(s: string)
    ensures Join(Split(s)) == s
    decreases |s|
  {
    if |s| > 0 {
      var rest := Split(s[1..]);
      JoinSplit(s[1..]);
      if s[0] == ' ' {
        assert Split(s) == [""] + rest;
        assert Join(Split(s)) == "" + " " + Join(rest);
        assert s == [' '] + s[1..];
      } else {
        assert Split(s) == [[s[0]] + rest[0]] + rest[1..];
        if |rest| == 1 {
          assert s == [s[0]] + s[1..];
        } else {
          assert Join(rest) == rest[0] + " " + Join(rest[1..]);
          assert s == [s[0]] + s[1..];
        }
      }
    }
  }

  /** Splitting at a space splits each side independently. */
  lemma {:induction false} SplitConcat(a: string, b: string)
    ensures Split(a + " " + b) == Split(a) + Split(b)
    decreases |a|, 1
  {
    if |a| == 0 {
      var s := a + " " + b;
      assert s[1..] == b;
      assert Split(s) == [""] + Split(b);
    } else {
      SplitConcatStep(a, b);
    }
  }

  /** `split(' ')` on a string with a known first character. */
  lemma SplitCons(c: char, t: string)
    ensures Split([c] + t) == if c == ' ' then [""] + Split(t) else [[c] + Split(t)[0]] + Split(t)[1..]
  {
    assert ([c] + t)[1..] == t;
  }

  /** The first-character rule of `Split` distributes over appending more tokens. */
  lemma ConsTokensAppend(c: char, ra: seq<string>, rb: seq<string>)
    requires |ra| >= 1
    ensures (if c == ' ' then [""] + (ra + rb) else [[c] + (ra + rb)[0]] + (ra + rb)[1..])
            == (if c == ' ' then [""] + ra else [[c] + ra[0]] + ra[1..]) + rb
  {
    if c == ' ' {
      assert [""] + (ra + rb) == ([""] + ra) + rb;
    } else {
      var head := [c] + ra[0];
      assert (ra + rb)[0] == ra[0];
      assert (ra + rb)[1..] == ra[1..] + rb;
      assert [head] + (ra[1..] + rb) == ([head] + ra[1..]) + rb;
    }
  }

  /** One step of `SplitConcat`: a first character in front of both sides keeps the split additive. */
  lemma SplitConsConcat(c: char, a: string, b: string)
    requires Split(a + " " + b) == Split(a) + Split(b)
    ensures Split([c] + a + " " + b) == Split([c] + a) + Split(b)
  {
    var t := a + " " + b;
    var ra, rb := Split(a), Split(b);
    calc {
      Split([c] + a + " " + b);
    == { assert [c] + a + " " + b == [c] + t; }
      Split([c] + t);
    == { SplitCons(c, t); }
      if c == ' ' then [""] + (ra + rb) else [[c] + (ra + rb)[0]] + (ra + rb)[1..];
    == { ConsTokensAppend(c, ra, rb); }
      (if c == ' ' then [""] + ra else [[c] + ra[0]] + ra[1..]) + rb;
    == { SplitCons(c, a); }
      Split([c] + a) + rb;
    }
  }

  /** The inductive step of `SplitConcat`: peel the first character of `a`. */
  lemma {:induction false} SplitConcatStep(a: string, b: string)
    requires |a| > 0
    ensures Split(a + " " + b) == Split(a) + Split(b)
    decreases |a|, 0
  {
    var a' := a[1..];
    assert a == [a[0]] + a';
    SplitConcat(a', b);
    SplitConsConcat(a[0], a', b);
  }

  /** A space-free string is a single token. */
  lemma {:induction false} SplitToken(a: string)
    ensures ' ' !in a ==> Split(a) == [a]
    decreases |a|
  {
    if |a| > 0 && ' ' !in a {
      assert a[0] in a;
      assert forall k :: 0 <= k < |a[1..]| ==> a[1..][k] == a[k + 1];
      SplitToken(a[1..]);
      assert a == [a[0]] + a[1..];
    }
  }

  /** `Array.prototype.indexOf`: the first position of `x`, or -1. */
  function IndexOf(ts: seq<string>, x: string): (i: int)
    ensures -1 <= i < |ts|
    ensures i == -1 <==> x !in ts
    ensures 0 <= i ==> ts[i] == x && x !in ts[..i]
    decreases |ts|
  {
    if |ts| == 0 then -1
    else if ts[0] == x then 0
    else
      var j := IndexOf(ts[1..], x);
      if j == -1 then -1
      else
        assert ts[..j + 1] == [ts[0]] + ts[1..][..j];
        j + 1
  }

  /** The push step: a truthy `a` that is not yet a token goes at the end; a missing or empty `a` is falsy. */
  function Push(ts: seq<string>, a: Option<string>): (res: seq<string>)
    ensures a.Some? && a.value != "" ==> a.value in res
    ensures a.None? || a.value == "" || a.value in ts ==> res == ts
    ensures res == ts || (a.Some? && a.value !in ts && res == ts + [a.value])
  {
    if a.Some? && a.value != "" && IndexOf(ts, a.value) == -1 then ts + [a.value] else ts
  }

  /** The splice step: the first token equal to `r` is cut out; a null `r` matches no token. */
  function Splice(ts: seq<string>, r: Option<string>): (res: seq<string>)
    ensures r.None? || r.value !in ts ==> res == ts
    ensures r.Some? && r.value in ts ==>
              exists i :: 0 <= i < |ts| && ts[i] == r.value && r.value !in ts[..i] && res == ts[..i] + ts[i + 1..]
    ensures multiset(res) == if r.Some? && r.value in ts then multiset(ts) - multiset{r.value} else multiset(ts)
  {
    if r.None? then ts
    else
      var i := IndexOf(ts, r.value);
      if i == -1 then ts
      else
        assert ts == ts[..i] + [ts[i]] + ts[i + 1..];
        ts[..i] + ts[i + 1..]
  }

  /** The token list `toggleClasses` joins back: push `a`, then splice the first `r`. */
  function ToggleTokens(ts: seq<string>, r: Option<string>, a: Option<string>): seq<string>
  {
    Splice(Push(ts, a), r)
  }

  /** `toggleClasses(el, r, a)` on the class attribute string. */
  function ToggleClasses(className: string, r: Option<string>, a: Option<string>): (res: string)
    ensures a.None? || ' ' !in a.value ==> Split(res) == Normalize(ToggleTokens(Split(className), r, a))
    ensures (a.None? || a.value == "" || a.value in Split(className)) && (r.None? || r.value !in Split(className))
            ==> res == className
  {
    var ts := ToggleTokens(Split(className), r, a);
    JoinSplit(className);
    ToggledTokensRoundTrip(className, r, a);
    Join(ts)
  }

  /** Pushing a space-free name keeps every token space-free. */
  lemma PushSpaceFree(ts: seq<string>, a: Option<string>)
    requires SpaceFree(ts)
    requires a.None? || ' ' !in a.value
    ensures SpaceFree(Push(ts, a))
  {
  }

  /** Cutting a token out keeps every remaining token space-free. */
  lemma SpliceSpaceFree(ts: seq<string>, r: Option<string>)
    requires SpaceFree(ts)
    ensures SpaceFree(Splice(ts, r))
  {
    var res := Splice(ts, r);
    forall k | 0 <= k < |res| ensures ' ' !in res[k] {
      assert res[k] in multiset(res);
      var j :| 0 <= j < |ts| && ts[j] == res[k];
    }
  }

  /** The pushed-then-spliced token list survives joining and splitting again. */
  lemma ToggledTokensRoundTrip(className: string, r: Option<string>, a: Option<string>)
    ensures a.None? || ' ' !in a.value ==>
              Split(Join(ToggleTokens(Split(className), r, a))) == Normalize(ToggleTokens(Split(className), r, a))
  {
    var ts := ToggleTokens(Split(className), r, a);
    if |ts| >= 1 && (a.None? || ' ' !in a.value) {
      SplitSpaceFree(className);
      PushSpaceFree(Split(className), a);
      SpliceSpaceFree(Push(Split(className), a), r);
      SplitJoin(ts);
    }
  }

  /** Normalizing adds only an empty token, which no non-empty class name counts. */
  lemma CountNormalize(ts: seq<string>, c: string)
    requires c != ""
    ensures multiset(Normalize(ts))[c] == multiset(ts)[c]
  {
  }

  /** The tally of `c` after the push step. */
  lemma PushCount(ts: seq<string>, a: Option<string>, c: string)
    ensures multiset(Push(ts, a))[c] == multiset(ts)[c] + (if a == Some(c) && c != "" && c !in ts then 1 else 0)
  {
  }

  /** The tally of a non-empty class in the rebuilt attribute is its tally in the toggled token list. */
  lemma CountLink(s: string, r: Option<string>, a: Option<string>, c: string)
    requires c != ""
    requires a.None? || ' ' !in a.value
    ensures Count(ToggleClasses(s, r, a), c) == multiset(ToggleTokens(Split(s), r, a))[c]
  {
    CountNormalize(ToggleTokens(Split(s), r, a), c);
  }

  /** A toggle that neither adds nor removes `c` keeps its tally. */
  lemma ToggleOtherCount(s: string, r: Option<string>, a: Option<string>, c: string)
    requires c != "" && a != Some(c) && r != Some(c)
    requires a.None? || ' ' !in a.value
    ensures Count(ToggleClasses(s, r, a), c) == Count(s, c)
  {
    CountLink(s, r, a, c);
    PushCount(Split(s), a, c);
  }

  /** The added class is present afterwards and, if it was not a duplicate, still is not. */
  lemma ToggleAddedCount(s: string, r: Option<string>, c: string)
    requires ValidToken(c) && r != Some(c)
    ensures c in Split(ToggleClasses(s, r, Some(c)))
    ensures Count(s, c) <= 1 ==> Count(ToggleClasses(s, r, Some(c)), c) <= 1
  {
    var ts := Split(s);
    var pushed := Push(ts, Some(c));
    CountLink(s, r, Some(c), c);
    PushCount(ts, Some(c), c);
    assert multiset(pushed)[c] >= 1;
    assert multiset(Splice(pushed, r))[c] == multiset(pushed)[c];
    assert multiset(Split(ToggleClasses(s, r, Some(c))))[c] >= 1;
  }

  /** The removed class is gone afterwards if it occurred at most once. */
  lemma ToggleRemovedCount(s: string, a: Option<string>, c: string)
    requires c != "" && a != Some(c)
    requires a.None? || ' ' !in a.value
    requires Count(s, c) <= 1
    ensures Count(ToggleClasses(s, Some(c), a), c) == 0
  {
    CountLink(s, Some(c), a, c);
    PushCount(Split(s), a, c);
  }

  /** A toggle never raises the tally of a class it does not add. */
  lemma ToggleNoRaise(s: string, r: Option<string>, a: Option<string>, c: string)
    requires c != "" && a != Some(c)
    requires a.None? || ' ' !in a.value
    ensures Count(ToggleClasses(s, r, a), c) <= Count(s, c)
  {
    CountLink(s, r, a, c);
    PushCount(Split(s), a, c);
  }

  /** `toggleClasses` with a space-free added name never introduces a duplicate class. */
  lemma ToggleKeepsNoDuplicates(s: string, r: Option<string>, a: Option<string>)
    requires NoDuplicates(s)
    requires a.None? || ' ' !in a.value
    ensures NoDuplicates(ToggleClasses(s, r, a))
  {
    forall c | c != ""
      ensures Count(ToggleClasses(s, r, a), c) <= 1
    {
      ToggleKeepsSingle(s, r, a, c);
    }
  }

  /** A class that occurs at most once still does so after a toggle with a space-free added name. */
  lemma ToggleKeepsSingle(s: string, r: Option<string>, a: Option<string>, c: string)
    requires c != "" && Count(s, c) <= 1
    requires a.None? || ' ' !in a.value
    ensures Count(ToggleClasses(s, r, a), c) <= 1
  {
    var pushed := Push(Split(s), a);
    PushCount(Split(s), a, c);
    assert multiset(pushed)[c] <= 1;
    assert multiset(Splice(pushed, r))[c] <= multiset(pushed)[c];
    CountLink(s, r, a, c);
  }

  /** The tokens other than the empty one and those in `managed`, in order. */
  function Unmanaged(ts: seq<string>, managed: set<string>): (res: seq<string>)
    ensures forall i :: 0 <= i < |res| ==> res[i] != "" && res[i] !in managed
    decreases |ts|
  {
    if |ts| == 0 then []
    else
      (if ts[0] != "" && ts[0] !in managed then [ts[0]] else []) + Unmanaged(ts[1..], managed)
  }

  /** Filtering distributes over concatenation. */
  lemma {:induction false} UnmanagedConcat(xs: seq<string>, ys: seq<string>, managed: set<string>)
    ensures Unmanaged(xs + ys, managed) == Unmanaged(xs, managed) + Unmanaged(ys, managed)
    decreases |xs|
  {
    if |xs| == 0 {
      assert xs + ys == ys;
    } else {
      var head := if xs[0] != "" && xs[0] !in managed then [xs[0]] else [];
      var tail := Unmanaged(xs[1..], managed);
      var other := Unmanaged(ys, managed);
      assert (xs + ys)[0] == xs[0];
      assert (xs + ys)[1..] == xs[1..] + ys;
      calc {
        Unmanaged(xs + ys, managed);
        head + Unmanaged(xs[1..] + ys, managed);
      == { UnmanagedConcat(xs[1..], ys, managed); }
        head + (tail + other);
      == { assert head + (tail + other) == (head + tail) + other; }
        Unmanaged(xs, managed) + other;
      }
    }
  }

  lemma UnmanagedPush(ts: seq<string>, a: Option<string>, managed: set<string>)
    requires a.None? || a.value in managed
    ensures Unmanaged(Push(ts, a), managed) == Unmanaged(ts, managed)
  {
    if Push(ts, a) != ts {
      UnmanagedConcat(ts, [a.value], managed);
      assert Unmanaged([a.value], managed) == [];
    }
  }

  lemma UnmanagedDrop(x: string, managed: set<string>)
    requires x in managed
    ensures Unmanaged([x], managed) == []
  {
    assert [x][1..] == [];
  }

  /** Dropping one managed token from any position leaves the unmanaged tokens as they were. */
  lemma UnmanagedRemoveAt(ts: seq<string>, i: int, managed: set<string>)
    requires 0 <= i < |ts| && ts[i] in managed
    ensures Unmanaged(ts[..i] + ts[i + 1..], managed) == Unmanaged(ts, managed)
  {
    var pre, x, rest := ts[..i], ts[i], ts[i + 1..];
    assert ts == (pre + [x]) + rest;
    UnmanagedConcat(pre + [x], rest, managed);
    UnmanagedConcat(pre, [x], managed);
    UnmanagedConcat(pre, rest, managed);
    UnmanagedDrop(x, managed);
  }

  /** Splicing out a managed token leaves the unmanaged tokens as they were. */
  lemma UnmanagedSplice(ts: seq<string>, r: Option<string>, managed: set<string>)
    requires r.None? || r.value in managed
    ensures Unmanaged(Splice(ts, r), managed) == Unmanaged(ts, managed)
  {
    if r.Some? && r.value in ts {
      var i := IndexOf(ts, r.value);
      assert Splice(ts, r) == ts[..i] + ts[i + 1..];
      UnmanagedRemoveAt(ts, i, managed);
    }
  }

  /**
    A `toggleClasses` call whose added and removed names are both managed leaves
    every other class of the attribute in place and in order.
  */
  lemma ToggleKeepsUnmanaged(s: string, r: Option<string>, a: Option<string>, managed: set<string>)
    requires r.None? || r.value in managed
    requires a.None? || (a.value in managed && ' ' !in a.value)
    ensures Unmanaged(Split(ToggleClasses(s, r, a)), managed) == Unmanaged(Split(s), managed)
  {
    var ts := Split(s);
    UnmanagedPush(ts, a, managed);
    UnmanagedSplice(Push(ts, a), r, managed);
    var t := ToggleTokens(ts, r, a);
    if |t| == 0 {
      assert Unmanaged(Normalize(t), managed) == [];
    }
  }

  /** Appending ` c` to an attribute that lacks `c` and removing `c` again restores the attribute exactly. */
  lemma AppendThenRemove(s: string, c: string)
    requires ValidToken(c)
    requires c !in Split(s)
    ensures Split(s + " " + c) == Split(s) + [c]
    ensures ToggleClasses(s + " " + c, Some(c), None) == s
  {
    SplitConcat(s, c);
    SplitToken(c);
    var ts := Split(s);
    var pushed := ts + [c] + [];
    assert pushed == ts + [c];
    IndexOfAfter(ts, c, []);
    assert pushed[..|ts|] + pushed[|ts| + 1..] == ts;
    assert ToggleClasses(s + " " + c, Some(c), None) == Join(ts);
    JoinSplit(s);
  }

  /** Of two trailing copies of `c`, removing `c` takes out the first and keeps the last. */
  lemma RemoveFirstOfTwo(s: string, c: string)
    requires ValidToken(c)
    requires c !in Split(s)
    ensures ToggleClasses(s + " " + c + " " + c, Some(c), None) == s + " " + c
  {
    var ts := Split(s);
    var twice := s + " " + c + " " + c;
    assert Split(twice) == ts + [c] + [c] by {
      AppendThenRemove(s, c);
      SplitConcat(s + " " + c, c);
      SplitToken(c);
    }
    assert ToggleTokens(ts + [c] + [c], Some(c), None) == ts + [c] by {
      var pushed := ts + [c] + [c];
      IndexOfAfter(ts, c, [c]);
      assert pushed[..|ts|] + pushed[|ts| + 1..] == ts + [c];
    }
    assert Join(ts + [c]) == s + " " + c by {
      JoinAppend(ts, c);
      JoinSplit(s);
    }
  }

  /** Joining one more token appends a space and the token. */
  lemma {:induction false} JoinAppend(ts: seq<string>, x: string)
    requires |ts| >= 1
    ensures Join(ts + [x]) == Join(ts) + " " + x
    decreases |ts|
  {
    if |ts| > 1 {
      JoinAppend(ts[1..], x);
      assert (ts + [x])[1..] == ts[1..] + [x];
    } else {
      assert (ts + [x])[1..] == [x];
    }
  }

  /**
    Adding a class the attribute lacks, while removing one it lacks, appends
    ` a`; this holds for a name with spaces too, which then splits into
    several tokens.
  */
  lemma AppendClass(s: string, r: Option<string>, a: string)
    requires a != "" && a !in Split(s)
    requires r.None? || (r.value !in Split(s) && r.value != a)
    ensures ToggleClasses(s, r, Some(a)) == s + " " + a
  {
    var ts := Split(s);
    assert Push(ts, Some(a)) == ts + [a];
    assert Splice(ts + [a], r) == ts + [a];
    JoinAppend(ts, a);
    JoinSplit(s);
  }

  /** The first occurrence of `c` in `ts + [c] + rest` is right after `ts` when `ts` lacks `c`. */
  lemma IndexOfAfter(ts: seq<string>, c: string, rest: seq<string>)
    requires c !in ts
    ensures IndexOf(ts + [c] + rest, c) == |ts|
  {
    var t := ts + [c] + rest;
    assert t[..|ts|] == ts;
    assert t[|ts|] == c;
  }

  /** On tokens: pushing `a` after a final `c` and splicing `c` out leaves `a` in its place. */
  lemma PushSpliceLast(ts: seq<string>, c: string, a: string)
    requires c !in ts && a !in ts && c != a && a != ""
    ensures ToggleTokens(ts + [c], Some(c), Some(a)) == ts + [a]
  {
    var t1 := ts + [c] + [a];
    assert a !in ts + [c];
    assert Push(ts + [c], Some(a)) == t1;
    IndexOfAfter(ts, c, [a]);
    assert t1[..|ts|] == ts && t1[|ts| + 1..] == [a];
  }

  /** Replacing the last class `c` by a class `a` the attribute lacks: `tC(e, c, a)` on `s + ' ' + c` gives `s + ' ' + a`. */
  lemma SwapLastClass(s: string, c: string, a: string)
    requires ValidToken(c) && ValidToken(a) && c != a
    requires c !in Split(s) && a !in Split(s)
    ensures ToggleClasses(s + " " + c, Some(c), Some(a)) == s + " " + a
  {
    var ts := Split(s);
    AppendThenRemove(s, c);
    PushSpliceLast(ts, c, a);
    assert ToggleClasses(s + " " + c, Some(c), Some(a)) == Join(ts + [a]);
    JoinAppend(ts, a);
    JoinSplit(s);
  }
}

=== FILE: config.dfy ===
/**
  Option defaulting of the `Stickybits` constructor in dist/stickybits.js.

  Every option is read as `o.key || default`, so a missing option and a falsy
  one (the empty string, `0`, `false`) both fall back to the default.
*/
module Config {
  import opened Dom

  const DefaultParentClass := "js-stickybit-parent"
  const DefaultStickyClass := "js-is-sticky"
  const DefaultStuckClass := "js-is-stuck"
  const DefaultVerticalPosition := "top"

  /** The scroll container option: the window, or a selector naming an ancestor element. */
  datatype ScrollEl = Window | Element(selector: string)

  /** `o.scrollEl || window`: an empty selector string is falsy. */
  function OrWindow(o: Option<ScrollEl>): (se: ScrollEl)
    ensures se == Window <==> o.None? || o.value == Window || o.value == Element("")
  {
    if o.Some? && o.value != Element("") then o.value else Window
  }

  /** One entry of `additionalClasses`: a class switched on `delta` pixels past `stickyStart`. */
  datatype Threshold = Threshold(cls: string, delta: int)

  /** The option bag handed to `stickybits(target, o)`; an absent key is `None`. */
  datatype Options = Options(
    noStyles: Option<bool>,
    stickyBitStickyOffset: Option<int>,
    parentClass: Option<string>,
    scrollEl: Option<ScrollEl>,
    stickyClass: Option<string>,
    stuckClass: Option<string>,
    additionalClasses: Option<seq<Threshold>>,
    useStickyClasses: Option<bool>,
    verticalPosition: Option<string>)

  /** The resolved `props` shared by every instance of one `Stickybits` call. */
  datatype Props = Props(
    noStyles: bool,
    stickyBitStickyOffset: int,
    parentClass: string,
    scrollEl: ScrollEl,
    stickyClass: string,
    stuckClass: string,
    additionalClasses: seq<Threshold>,
    useStickyClasses: bool,
    verticalPosition: string,
    positionVal: string,
    paddingPosition: string)

  /** `o.key || d` for a string option. */
  function OrString(o: Option<string>, d: string): string
  {
    if o.Some? && o.value != "" then o.value else d
  }

  /** The parent padding property that mirrors the sticky edge. */
  function PaddingPosition(verticalPosition: string): (pp: string)
    ensures pp == "paddingTop" || pp == "paddingBottom"
    ensures pp == "paddingTop" <==> verticalPosition == "top"
  {
    if verticalPosition == "top" then "paddingTop" else "paddingBottom"
  }

  /**
    `this.props` as the constructor builds it. `probe` is what the sticky-support
    probe left in the scratch style's `position` (the empty string when no prefixed
    `sticky` value was accepted).
  */
  function Resolve(o: Options, probe: string): (p: Props)
    ensures p.parentClass != "" && p.stickyClass != "" && p.stuckClass != ""
    ensures p.verticalPosition != "" && p.positionVal != ""
    ensures o.stickyClass.None? || o.stickyClass.value == "" ==> p.stickyClass == DefaultStickyClass
    ensures o.stuckClass.None? || o.stuckClass.value == "" ==> p.stuckClass == DefaultStuckClass
    ensures o.parentClass.None? || o.parentClass.value == "" ==> p.parentClass == DefaultParentClass
    ensures o.stickyClass.Some? && o.stickyClass.value != "" ==> p.stickyClass == o.stickyClass.value
    ensures o.stuckClass.Some? && o.stuckClass.value != "" ==> p.stuckClass == o.stuckClass.value
    ensures o.parentClass.Some? && o.parentClass.value != "" ==> p.parentClass == o.parentClass.value
    ensures o.verticalPosition.None? || o.verticalPosition.value == "" ==> p.verticalPosition == DefaultVerticalPosition
    ensures o.verticalPosition.Some? && o.verticalPosition.value != "" ==> p.verticalPosition == o.verticalPosition.value
    ensures probe != "" <==> p.positionVal == probe
    ensures probe == "" ==> p.positionVal == "fixed"
    ensures p.paddingPosition == "paddingTop" <==> p.verticalPosition == "top"
    ensures p.verticalPosition != "top" ==> p.paddingPosition == "paddingBottom"
    ensures p.scrollEl == OrWindow(o.scrollEl)
    ensures o.scrollEl.None? ==> p.scrollEl == Window
    ensures o.scrollEl.Some? && o.scrollEl.value != Element("") ==> p.scrollEl == o.scrollEl.value
    ensures o.additionalClasses.None? ==> p.additionalClasses == []
    ensures o.additionalClasses.Some? ==> p.additionalClasses == o.additionalClasses.value
    ensures o.stickyBitStickyOffset.None? ==> p.stickyBitStickyOffset == 0
    ensures o.stickyBitStickyOffset.Some? ==> p.stickyBitStickyOffset == o.stickyBitStickyOffset.value
    ensures !p.noStyles <==> o.noStyles != Some(true)
    ensures p.useStickyClasses <==> o.useStickyClasses == Some(true)
  {
    var vp := OrString(o.verticalPosition, DefaultVerticalPosition);
    Props(
      noStyles := o.noStyles == Some(true),
      stickyBitStickyOffset := if o.stickyBitStickyOffset.Some? then o.stickyBitStickyOffset.value else 0,
      parentClass := OrString(o.parentClass, DefaultParentClass),
      scrollEl := OrWindow(o.scrollEl),
      stickyClass := OrString(o.stickyClass, DefaultStickyClass),
      stuckClass := OrString(o.stuckClass, DefaultStuckClass),
      additionalClasses := if o.additionalClasses.Some? then o.additionalClasses.value else [],
      useStickyClasses := o.useStickyClasses == Some(true),
      verticalPosition := vp,
      positionVal := OrString(Some(probe), "fixed"),
      paddingPosition := PaddingPosition(vp))
  }

  /** The option bag that spells out every resolved value of `p`. */
  function AsOptions(p: Props): Options
  {
    Options(Some(p.noStyles), Some(p.stickyBitStickyOffset), Some(p.parentClass), Some(p.scrollEl),
            Some(p.stickyClass), Some(p.stuckClass), Some(p.additionalClasses), Some(p.useStickyClasses),
            Some(p.verticalPosition))
  }

  /**
    Defaulting is settled after one pass: passing the resolved values back as
    options, with the same probe, resolves to the same props.
  */
  lemma ResolveSettled(o: Options, probe: string)
    ensures Resolve(AsOptions(Resolve(o, probe)), probe) == Resolve(o, probe)
  {
  }

  /** The option bag of a page that passes none. */
  const NoOptions := Options(None, None, None, None, None, None, None, None, None)

  /** The props of a page that passes no options, in a browser without native sticky positioning. */
  const FixedDefaults := Props(false, 0, DefaultParentClass, Window, DefaultStickyClass, DefaultStuckClass, [], false, "top", "fixed", "paddingTop")

  /** No options and a failed sticky probe give the documented defaults with `fixed` positioning. */
  lemma NoOptionsResolve()
    ensures Resolve(NoOptions, "") == FixedDefaults
  {
  }
}

=== FILE: dom.dfy ===
/**
  The slice of the browser document that stickybits touches, as plain values.

  An element is its `className` string and its inline style declarations. Writing
  `style.x = ''` stores the empty string, and a property never written reads as
  the empty string, so every style read goes through `StyleOf`.
*/
module Dom {

  /** A value that may be missing: JavaScript's `null`/`undefined` arguments. */
  datatype Option<+T> = None | Some(value: T)

  /** Inline style declarations of one element, keyed by property name. */
  type Style = map<string, string>

  /** An element (or a parent element): its class attribute and inline style. */
  datatype Node = Node(className: string, style: Style)

  /** Reading `style[key]`: a property never written reads as the empty string. */
  function StyleOf(m: Style, key: string): string
  {
    if key in m then m[key] else ""
  }

  /** True iff `m'` reads like `m` on every property outside `keys`. */
  ghost predicate SameExcept(m: Style, m': Style, keys: set<string>)
  {
    forall k :: k !in keys ==> StyleOf(m', k) == StyleOf(m, k)
  }

  /** Writing `style[key] = value`. */
  function SetStyle(m: Style, key: string, value: string): (m': Style)
    ensures StyleOf(m', key) == value
    ensures SameExcept(m, m', {key})
  {
    m[key := value]
  }

  /** Decimal digit character of `d`. */
  function DigitChar(d: nat): (c: char)
    requires d < 10
    ensures '0' <= c <= '9'
    ensures DigitValue(c) == d
  {
    ('0' as int + d) as char
  }

  /** The number a decimal digit character stands for. */
  function DigitValue(c: char): int
  {
    c as int - '0' as int
  }

  /** The number a string of decimal digits denotes, most significant digit first. */
  function DigitsValue(s: string): int
    decreases |s|
  {
    if |s| == 0 then 0 else DigitsValue(s[..|s| - 1]) * 10 + DigitValue(s[|s| - 1])
  }

  /** The number an optionally signed decimal text denotes. */
  function DecimalValue(s: string): int
  {
    if |s| > 0 && s[0] == '-' then -DigitsValue(s[1..]) else DigitsValue(s)
  }

  /** Decimal digits with no leading zero, unless the whole numeral is `0`. */
  predicate Numeral(t: string)
  {
    && |t| >= 1
    && (forall i :: 0 <= i < |t| ==> '0' <= t[i] <= '9')
    && (t[0] == '0' ==> t == "0")
  }

  /** The way JavaScript writes an integer: a numeral, or a minus sign and a numeral other than `0`. */
  predicate Canonical(t: string)
  {
    || Numeral(t)
    || (|t| >= 2 && t[0] == '-' && Numeral(t[1..]) && t[1..] != "0")
  }

  /**
    Decimal text of a natural number, as JavaScript's string conversion writes
    it for numbers below 10^21.
  */
  function NatToString(n: nat): (s: string)
    ensures Numeral(s)
    ensures s == "0" <==> n == 0
    decreases n
  {
    if n < 10 then [DigitChar(n)] else NatToString(n / 10) + [DigitChar(n % 10)]
  }

  /** The decimal text of `n` denotes `n`. */
  lemma {:induction false} NatToStringValue(n: nat)
    ensures DigitsValue(NatToString(n)) == n
    decreases n
  {
    var s := NatToString(n);
    if n < 10 {
      assert s[..|s| - 1] == [];
    } else {
      NatToStringValue(n / 10);
      assert s[..|s| - 1] == NatToString(n / 10);
    }
  }

  /** Decimal text of an integer, with a leading minus sign when negative. */
  function IntToString(n: int): (s: string)
    ensures Canonical(s)
    ensures n >= 0 <==> '0' <= s[0] <= '9'
    ensures DecimalValue(s) == n
  {
    if n < 0 then
      NatToStringValue(-n);
      assert ("-" + NatToString(-n))[1..] == NatToString(-n);
      "-" + NatToString(-n)
    else
      NatToStringValue(n);
      NatToString(n)
  }

  /** The CSS length `n + 'px'`: a decimal text that denotes `n`, then the unit. */
  function Px(n: int): (s: string)
    ensures |s| >= 3 && s[|s| - 2..] == "px"
    ensures Canonical(s[..|s| - 2]) && DecimalValue(s[..|s| - 2]) == n
  {
    var t := IntToString(n);
    assert (t + "px")[..|t|] == t;
    t + "px"
  }

  /** Different numbers are written as different lengths. */
  lemma PxInjective(a: int, b: int)
    ensures Px(a) == Px(b) ==> a == b
  {
  }
}

=== FILE: legacy.dfy ===
/**
  The older, class-list driven variant in src/stickybits.js: the per-element
  setup of `stickybit` and its scroll handler `stickiness`.

  The thresholds are read once at setup. The stuck guard compares the scroll
  position with the free identifier `stop`, not with the computed
  `stickyBitStop`; what that identifier denotes is a parameter (`StuckBound`).
*/
module Legacy {
  import opened Dom
  import StateMachine
  import Config
  import Offsets

  const LegacyStickyClass := "js-is-sticky"
  const LegacyStuckClass := "js-is-stuck"
  const LegacyParentClass := "js-stickybit-parent"

  /** `classList.add(c)`: a token list without repeats; adding a present token changes nothing. */
  function AddClass(cl: seq<string>, c: string): (r: seq<string>)
    ensures c in r
    ensures forall x :: x != c ==> (x in r <==> x in cl)
    ensures c in cl ==> r == cl
  {
    if c in cl then cl else cl + [c]
  }

  /** `classList.remove(c)`: every occurrence of `c` goes, the rest keep their order. */
  function RemoveClass(cl: seq<string>, c: string): (r: seq<string>)
    ensures c !in r
    ensures forall x :: x != c ==> (x in r <==> x in cl)
    ensures c !in cl ==> r == cl
    ensures |r| <= |cl|
    decreases |cl|
  {
    if |cl| == 0 then []
    else if cl[0] == c then RemoveClass(cl[1..], c)
    else [cl[0]] + RemoveClass(cl[1..], c)
  }

  /** An element as `stickybit` sees it: its class list and inline style. */
  datatype LegacyEl = LegacyEl(classes: seq<string>, style: Style)

  /** The `opts` fields `stickybit` reads; each is `(opts && opts.x) || default`. */
  datatype LegacyOptions = LegacyOptions(
    customVerticalPosition: Option<bool>,
    stickyBitStickyOffset: Option<int>,
    fixedOnly: Option<bool>,
    fixedSticky: Option<bool>)

  /** What `stickiness` closes over: the thresholds, the position value and the top-edge options. */
  datatype Machine = Machine(start: int, stop: int, css: string, customVerticalPosition: bool, offset: int)

  /** The element after setup, the parent's class list, and the scroll handler when one is installed. */
  datatype Setup = Setup(el: LegacyEl, parentClasses: seq<string>, machine: Option<Machine>)

  /** `stickyBitStop`: the start plus the parent's height less the element's. */
  function LegacyStop(start: int, parentHeight: int, elHeight: int): (stop: int)
    ensures stop - start == parentHeight - elHeight
    ensures start <= stop <==> elHeight <= parentHeight
  {
    (start + parentHeight) - elHeight
  }

  /** Is native sticky positioning taken as supported? Only when probing ran and left a value. */
  predicate StickySupport(fixedOnly: bool, probe: string)
  {
    !fixedOnly && probe != ""
  }

  /**
    `stickybit(target, opts)` up to installing the handler. `probe` is what the
    element's `position` reads after the prefixed `sticky` values were written:
    the last value the browser accepted, or the element's earlier inline value
    when it accepted none. `elTop`, `parentHeight` and `elHeight` are the
    readings taken at setup. Only `position` and `top` are ever written.
  */
  function SetupStickybit(el: LegacyEl, parentClasses: seq<string>, o: LegacyOptions, probe: string,
                          elTop: int, parentHeight: int, elHeight: int): (r: Setup)
    ensures var fixedOnly := o.fixedOnly == Some(true);
            var fixedSticky := o.fixedSticky == Some(true);
            r.machine.None? <==> StickySupport(fixedOnly, probe) && !fixedSticky
    ensures r.machine.Some? ==>
              && r.machine.value.start == elTop
              && r.machine.value.stop == LegacyStop(elTop, parentHeight, elHeight)
              && r.machine.value.css == (if StickySupport(o.fixedOnly == Some(true), probe) then probe else "fixed")
              && r.machine.value.offset == (if o.stickyBitStickyOffset.Some? then o.stickyBitStickyOffset.value else 0)
              && r.machine.value.customVerticalPosition == (o.customVerticalPosition == Some(true))
              && r.parentClasses == AddClass(parentClasses, LegacyParentClass)
    ensures r.machine.None? ==> r.parentClasses == parentClasses
    ensures r.el.classes == el.classes
    ensures SameExcept(el.style, r.el.style, {"position", "top"})
    ensures o.fixedOnly != Some(true) ==> StyleOf(r.el.style, "position") == probe
    ensures o.fixedOnly == Some(true) ==> r.el.style == el.style
    ensures StickySupport(o.fixedOnly == Some(true), probe) && o.customVerticalPosition != Some(true) ==>
              StyleOf(r.el.style, "top") == Px(if o.stickyBitStickyOffset.Some? then o.stickyBitStickyOffset.value else 0)
    ensures StickySupport(o.fixedOnly == Some(true), probe) && o.fixedSticky == Some(true) && o.customVerticalPosition == Some(true) ==>
              StyleOf(r.el.style, "top") == ""
    ensures !StickySupport(o.fixedOnly == Some(true), probe) ==> StyleOf(r.el.style, "top") == StyleOf(el.style, "top")
    ensures StickySupport(o.fixedOnly == Some(true), probe) && o.fixedSticky != Some(true) && o.customVerticalPosition == Some(true) ==>
              StyleOf(r.el.style, "top") == StyleOf(el.style, "top")
  {
    var cvp := o.customVerticalPosition == Some(true);
    var offset := if o.stickyBitStickyOffset.Some? then o.stickyBitStickyOffset.value else 0;
    var fixedOnly := o.fixedOnly == Some(true);
    var fixedSticky := o.fixedSticky == Some(true);
    var probed := if fixedOnly then el.style else SetStyle(el.style, "position", probe);
    var support := StickySupport(fixedOnly, probe);
    var cleared := if support && fixedSticky then SetStyle(probed, "top", "") else probed;
    var topped := if support && !cvp then SetStyle(cleared, "top", Px(offset)) else cleared;
    assert !fixedOnly ==> StyleOf(topped, "position") == probe by {
      assert "top" != "position";
    }
    assert !fixedOnly ==> StyleOf(probed, "top") == StyleOf(el.style, "top") by {
      assert "top" != "position";
    }
    var el' := el.(style := topped);
    if support && !fixedSticky then Setup(el', parentClasses, None)
    else
      var css := if support then probe else "fixed";
      Setup(el', AddClass(parentClasses, LegacyParentClass),
            Some(Machine(elTop, LegacyStop(elTop, parentHeight, elHeight), css, cvp, offset)))
  }

  /** What the free identifier `stop` compares as: a number, or something that is not one. */
  datatype StuckBound = Numeric(n: int) | NotANumber

  /** `scroll > stop`: a comparison with a value that is not a number is false. */
  predicate Beyond(scroll: int, bound: StuckBound)
  {
    bound.Numeric? && scroll > bound.n
  }

  /** `stickiness()` for the scroll position `scroll`, with `stop` read as `bound`. */
  function Stickiness(el: LegacyEl, scroll: int, m: Machine, bound: StuckBound): (r: LegacyEl)
    ensures scroll < m.start ==>
              if LegacyStickyClass in el.classes
              then LegacyStickyClass !in r.classes && StyleOf(r.style, "position") == ""
              else r == el
    ensures scroll < m.start ==>
              && SameExcept(el.style, r.style, {"position"})
              && (LegacyStuckClass in r.classes <==> LegacyStuckClass in el.classes)
    ensures m.start < scroll < m.stop ==>
              && LegacyStickyClass in r.classes
              && LegacyStuckClass !in r.classes
              && StyleOf(r.style, "position") == m.css
              && (LegacyStuckClass in el.classes ==> StyleOf(r.style, "bottom") == "")
              && (!m.customVerticalPosition ==> StyleOf(r.style, "top") == Px(m.offset))
              && (LegacyStuckClass !in el.classes ==> StyleOf(r.style, "bottom") == StyleOf(el.style, "bottom"))
              && (m.customVerticalPosition ==> StyleOf(r.style, "top") == StyleOf(el.style, "top"))
    ensures LegacyStuckClass in r.classes && LegacyStuckClass !in el.classes ==> Beyond(scroll, bound)
    ensures forall x :: x != LegacyStickyClass && x != LegacyStuckClass ==> (x in r.classes <==> x in el.classes)
    ensures SameExcept(el.style, r.style, {"position", "bottom", "top"})
  {
    var cl := el.classes;
    if scroll < m.start then
      if LegacyStickyClass in cl then LegacyEl(RemoveClass(cl, LegacyStickyClass), SetStyle(el.style, "position", ""))
      else el
    else if scroll > m.start && scroll < m.stop then
      var added := AddClass(cl, LegacyStickyClass);
      var unstuck := if LegacyStuckClass in added then RemoveClass(added, LegacyStuckClass) else added;
      var bottom := if LegacyStuckClass in added then SetStyle(el.style, "bottom", "") else el.style;
      var positioned := SetStyle(bottom, "position", m.css);
      assert LegacyStuckClass in el.classes ==> StyleOf(positioned, "bottom") == "" by {
        assert "bottom" != "position";
      }
      var style := if !m.customVerticalPosition then SetStyle(positioned, "top", Px(m.offset)) else positioned;
      assert StyleOf(style, "position") == m.css by {
        assert "top" != "position";
      }
      LegacyEl(unstuck, style)
    else if Beyond(scroll, bound) && LegacyStuckClass !in cl then
      var classes := AddClass(RemoveClass(cl, LegacyStickyClass), LegacyStuckClass);
      var style := SetStyle(SetStyle(SetStyle(el.style, "top", ""), "bottom", "0"), "position", "absolute");
      LegacyEl(classes, style)
    else el
  }

  /**
    The strict guards leave a gap: at exactly the start, and at exactly the stop
    of a non-empty range, no branch fires unless `stop` reads as a number below
    the scroll position.
  */
  lemma BoundaryGap(el: LegacyEl, m: Machine, bound: StuckBound)
    ensures !Beyond(m.start, bound) ==> Stickiness(el, m.start, m, bound) == el
    ensures m.start < m.stop && !Beyond(m.stop, bound) ==> Stickiness(el, m.stop, m, bound) == el
  {
  }

  /**
    Past the range, the stuck branch fires only when `scroll > stop` holds and
    the stuck class is not yet there; it then swaps sticky for stuck and pins
    the element to the parent's bottom. A second tick changes nothing.
  */
  lemma StuckBranch(el: LegacyEl, scroll: int, m: Machine, bound: StuckBound)
    requires m.start <= scroll && !(m.start < scroll < m.stop)
    ensures var r := Stickiness(el, scroll, m, bound);
            if Beyond(scroll, bound) && LegacyStuckClass !in el.classes then
              && LegacyStuckClass in r.classes
              && LegacyStickyClass !in r.classes
              && StyleOf(r.style, "top") == ""
              && StyleOf(r.style, "bottom") == "0"
              && StyleOf(r.style, "position") == "absolute"
            else r == el
  {
    var r := Stickiness(el, scroll, m, bound);
    if Beyond(scroll, bound) && LegacyStuckClass !in el.classes {
      var t := SetStyle(el.style, "top", "");
      var b := SetStyle(t, "bottom", "0");
      assert r.style == SetStyle(b, "position", "absolute");
      assert StyleOf(b, "top") == "" by {
        assert "bottom" != "top";
      }
      assert "position" != "top" && "position" != "bottom";
    }
  }

  /** The sticky and stuck classes are never both on the element after a tick that started without both. */
  lemma StickinessExclusive(el: LegacyEl, scroll: int, m: Machine, bound: StuckBound)
    requires !(LegacyStickyClass in el.classes && LegacyStuckClass in el.classes)
    ensures var r := Stickiness(el, scroll, m, bound);
            !(LegacyStickyClass in r.classes && LegacyStuckClass in r.classes)
  {
    if m.start <= scroll && !(m.start < scroll < m.stop) {
      StuckBranch(el, scroll, m, bound);
    }
  }

  /**
    The scroll handler over a sequence of scroll positions, thresholds fixed at
    setup: sticky and stuck are never on the element together, its other
    classes stay as they were, only `position`, `bottom` and `top` are written,
    and the stuck class is gained only if some tick scrolled beyond `stop`.
  */
  function LegacyRun(el: LegacyEl, scrolls: seq<int>, m: Machine, bound: StuckBound): (r: LegacyEl)
    ensures !(LegacyStickyClass in el.classes && LegacyStuckClass in el.classes) ==>
              !(LegacyStickyClass in r.classes && LegacyStuckClass in r.classes)
    ensures forall x :: x != LegacyStickyClass && x != LegacyStuckClass ==> (x in r.classes <==> x in el.classes)
    ensures SameExcept(el.style, r.style, {"position", "bottom", "top"})
    ensures LegacyStuckClass in r.classes && LegacyStuckClass !in el.classes ==>
              exists i :: 0 <= i < |scrolls| && Beyond(scrolls[i], bound)
    decreases |scrolls|
  {
    if |scrolls| == 0 then el
    else
      var first := Stickiness(el, scrolls[0], m, bound);
      var r := LegacyRun(first, scrolls[1..], m, bound);
      assert !(LegacyStickyClass in el.classes && LegacyStuckClass in el.classes) ==>
               !(LegacyStickyClass in first.classes && LegacyStuckClass in first.classes) by {
        if !(LegacyStickyClass in el.classes && LegacyStuckClass in el.classes) {
          StickinessExclusive(el, scrolls[0], m, bound);
        }
      }
      assert LegacyStuckClass in r.classes && LegacyStuckClass !in el.classes ==>
               exists i :: 0 <= i < |scrolls| && Beyond(scrolls[i], bound) by {
        if LegacyStuckClass in r.classes && LegacyStuckClass !in el.classes {
          if LegacyStuckClass in first.classes {
            assert Beyond(scrolls[0], bound);
          } else {
            var i :| 0 <= i < |scrolls[1..]| && Beyond(scrolls[1..][i], bound);
            assert scrolls[i + 1] == scrolls[1..][i];
          }
        }
      }
      r
  }

  /**
    A concrete case: the element starts sticking at 0, its parent is 100 tall
    and it is 10 tall, so the range ends at 90. Scrolled to 200, the element as
    written keeps its sticky class and fixed position, far past its parent.
  */
  lemma AsWrittenStaysSticky()
    ensures var m := Machine(0, LegacyStop(0, 100, 10), "fixed", false, 0);
            var el := LegacyEl([LegacyStickyClass], map["position" := "fixed"]);
            && m.stop == 90
            && Stickiness(el, 200, m, NotANumber) == el
            && LegacyStuckClass !in Stickiness(el, 200, m, NotANumber).classes
  {
  }

  /** The handler as evidently intended: the stuck guard compares with `stickyBitStop`. */
  function StickinessIntended(el: LegacyEl, scroll: int, m: Machine): (r: LegacyEl)
    ensures m.start <= m.stop && scroll > m.stop && LegacyStuckClass !in el.classes ==>
              && LegacyStuckClass in r.classes
              && LegacyStickyClass !in r.classes
              && StyleOf(r.style, "bottom") == "0"
              && StyleOf(r.style, "position") == "absolute"
    ensures LegacyStuckClass in r.classes && LegacyStuckClass !in el.classes ==> scroll > m.stop
  {
    var r := Stickiness(el, scroll, m, Numeric(m.stop));
    StuckBranchAt(el, scroll, m);
    r
  }

  /** Helper for `StickinessIntended`: past a non-empty range the corrected guard fires. */
  lemma StuckBranchAt(el: LegacyEl, scroll: int, m: Machine)
    ensures m.start <= m.stop && scroll > m.stop ==>
              var r := Stickiness(el, scroll, m, Numeric(m.stop));
              LegacyStuckClass !in el.classes ==>
                && LegacyStuckClass in r.classes
                && LegacyStickyClass !in r.classes
                && StyleOf(r.style, "bottom") == "0"
                && StyleOf(r.style, "position") == "absolute"
  {
    if m.start <= m.stop && scroll > m.stop {
      StuckBranch(el, scroll, m, Numeric(m.stop));
    }
  }

  /**
    With the corrected guard, from a sticky element inside a non-empty range,
    one tick past the stop leaves it stuck, and one tick back inside makes it
    sticky again.
  */
  lemma IntendedRoundTrip(el: LegacyEl, m: Machine, below: int, past: int)
    requires m.start < below < m.stop < past
    requires LegacyStuckClass !in el.classes
    ensures var stuck := StickinessIntended(el, past, m);
            var back := StickinessIntended(stuck, below, m);
            && LegacyStuckClass in stuck.classes && LegacyStickyClass !in stuck.classes
            && LegacyStickyClass in back.classes && LegacyStuckClass !in back.classes
            && StyleOf(back.style, "position") == m.css
  {
  }

  /** The legacy element's state, read from its classes: stuck wins over sticky. */
  function LegacyState(el: LegacyEl): StateMachine.State
  {
    if LegacyStuckClass in el.classes then StateMachine.Stuck
    else if LegacyStickyClass in el.classes then StateMachine.Sticky
    else StateMachine.Default
  }

  /**
    On the same non-empty range, one tick of the corrected legacy handler and
    one step of the dist state machine agree, except in exactly two cases: a
    sticky element at exactly the start or the stop, which the legacy strict
    guards leave sticky, and a default element past the stop, which the legacy
    handler pins at once while dist waits for it to have been sticky.
  */
  lemma IntendedMatchesDist(el: LegacyEl, scroll: int, m: Machine)
    requires m.start < m.stop
    requires !(LegacyStickyClass in el.classes && LegacyStuckClass in el.classes)
    ensures var legacy := LegacyState(StickinessIntended(el, scroll, m));
            var dist := StateMachine.NextState(LegacyState(el), scroll, m.start, m.stop);
            && (legacy == dist <==>
                  !(|| (LegacyState(el) == StateMachine.Sticky && (scroll == m.start || scroll == m.stop))
                    || (LegacyState(el) == StateMachine.Default && scroll > m.stop)))
            && (LegacyState(el) == StateMachine.Sticky && (scroll == m.start || scroll == m.stop) ==>
                  legacy == StateMachine.Sticky)
            && (LegacyState(el) == StateMachine.Default && scroll > m.stop ==>
                  legacy == StateMachine.Stuck && dist == StateMachine.Default)
  {
  }

  /**
    The legacy thresholds are the ones dist computes for a window container,
    measured at scroll 0 for an element at the top of its parent: the same
    start, and a stop that dist moves down by the sticky offset. With no offset
    both handlers decide against the same range.
  */
  lemma SetupMatchesOffsets(el: LegacyEl, parentClasses: seq<string>, o: LegacyOptions, probe: string,
                            elTop: int, parentHeight: int, elHeight: int, p: Config.Props, clientHeight: int)
    requires p.stickyBitStickyOffset == (if o.stickyBitStickyOffset.Some? then o.stickyBitStickyOffset.value else 0)
    ensures var r := SetupStickybit(el, parentClasses, o, probe, elTop, parentHeight, elHeight);
            var d := Offsets.ComputeScrollOffsets(true, p, Offsets.Geometry(0, elTop, 0, parentHeight, elHeight, clientHeight));
            r.machine.Some? ==>
              && d.stickyStart == r.machine.value.start
              && d.offset == r.machine.value.offset
              && d.stickyStop == r.machine.value.stop + r.machine.value.offset
  {
  }
}

=== FILE: lifecycle.dfy ===
/**
  The life of one instance in dist/stickybits.js: registration by the
  constructor, `addInstance`, the scroll handler `stateContainer` (recompute the
  offsets, then `manageState`), and the teardown `removeInstance`.

  The debounced scroll listener is taken as a sequence of geometry readings,
  each handled in full before the next.
*/
module Lifecycle {
  import opened Dom
  import opened ClassTokens
  import opened Config
  import opened Offsets
  import opened StateMachine

  /**
    The class names a `Props` configures are single tokens, sticky and stuck
    differ, and the additional classes are distinct (they are the keys of one
    object).
  */
  ghost predicate ValidClasses(p: Props)
  {
    && ValidToken(p.stickyClass)
    && ValidToken(p.stuckClass)
    && ValidToken(p.parentClass)
    && p.stickyClass != p.stuckClass
    && (forall i :: 0 <= i < |p.additionalClasses| ==> ValidToken(p.additionalClasses[i].cls))
    && (forall i, j :: 0 <= i < j < |p.additionalClasses| ==>
          p.additionalClasses[i].cls != p.additionalClasses[j].cls)
  }

  /** A class-name option that, once defaulted, is a single token: missing, empty, or a token. */
  ghost predicate ValidNameOption(o: Option<string>)
  {
    o.None? || o.value == "" || ValidToken(o.value)
  }

  /** The options whose resolved class names satisfy `ValidClasses`. */
  ghost predicate ValidClassOptions(o: Options)
  {
    && ValidNameOption(o.stickyClass)
    && ValidNameOption(o.stuckClass)
    && ValidNameOption(o.parentClass)
    && OrString(o.stickyClass, DefaultStickyClass) != OrString(o.stuckClass, DefaultStuckClass)
    && (o.additionalClasses.Some? ==>
          var ac := o.additionalClasses.value;
          && (forall i :: 0 <= i < |ac| ==> ValidToken(ac[i].cls))
          && (forall i, j :: 0 <= i < j < |ac| ==> ac[i].cls != ac[j].cls))
  }

  /**
    The constructor's props meet `ValidClasses`, which every run and teardown
    property assumes, exactly when the options name single-token classes,
    sticky and stuck end up different, and the additional classes are distinct
    tokens.
  */
  lemma ResolveValidClasses(o: Options, probe: string)
    ensures ValidClasses(Resolve(o, probe)) <==> ValidClassOptions(o)
  {
  }

  /** Freshly computed offsets of a well-configured instance satisfy `WellFormed`. */
  lemma FreshOffsetsWellFormed(it: Instance, g: Geometry)
    requires ValidClasses(it.props)
    ensures WellFormed(it.(offsets := ComputeScrollOffsets(it.isWin, it.props, g)))
  {
    var o := ComputeScrollOffsets(it.isWin, it.props, g);
    var ac := it.props.additionalClasses;
    forall i | 0 <= i < |o.modifiers| ensures ValidToken(o.modifiers[i].cls) {
      assert o.modifiers[i].cls == ac[i].cls;
    }
    forall i, j | 0 <= i < j < |o.modifiers| ensures o.modifiers[i].cls != o.modifiers[j].cls {
      assert o.modifiers[i].cls == ac[i].cls && o.modifiers[j].cls == ac[j].cls;
    }
  }

  /** `stateContainer`: recompute the offsets from the current geometry, then `manageState`. */
  function StateContainer(it: Instance, g: Geometry): (r: Instance)
    ensures r.offsets == ComputeScrollOffsets(it.isWin, it.props, g)
    ensures r.state == NextState(it.state, g.scroll, r.offsets.stickyStart, r.offsets.stickyStop)
    ensures r.props == it.props && r.isWin == it.isWin
    ensures r.parent.className == it.parent.className
    ensures SameExcept(it.el.style, r.el.style, ElementKeys(it.props))
    ensures SameExcept(it.parent.style, r.parent.style, {it.props.paddingPosition})
  {
    var item := it.(offsets := ComputeScrollOffsets(it.isWin, it.props, g));
    ManageState(item, g.scroll, g.elClientHeight)
  }

  /**
    `addInstance(el, props)`: the parent receives `' ' + parentClass`, the
    instance is a window instance exactly when `scrollEl` is the window, the
    offsets are computed, the state starts at default and `manageState` runs
    once. For a selector `scrollEl`, `g` holds the readings of the container
    element it resolves to, which is what the offsets are evidently meant to be
    measured against (see `AddInstanceAsWritten` for what the code reads).
  */
  function AddInstance(el: Node, parent: Node, props: Props, g: Geometry): (it: Instance)
    ensures it.parent.className == parent.className + " " + props.parentClass
    ensures it.props == props && (it.isWin <==> props.scrollEl == Window)
    ensures it.offsets == ComputeScrollOffsets(it.isWin, props, g)
    ensures it.state != Stuck
    ensures it.state == Sticky <==> it.offsets.stickyStart < g.scroll < it.offsets.stickyStop
    ensures SameExcept(el.style, it.el.style, ElementKeys(props))
    ensures SameExcept(parent.style, it.parent.style, {props.paddingPosition})
  {
    var isWin := props.scrollEl == Window;
    var o := ComputeScrollOffsets(isWin, props, g);
    var item := Instance(el, parent.(className := parent.className + " " + props.parentClass), props, isWin, Default, o);
    ManageState(item, g.scroll, g.elClientHeight)
  }

  /** The debounced scroll handler, fed one geometry reading per call, the last reading handled last. */
  function Run(it: Instance, gs: seq<Geometry>): (r: Instance)
    ensures r.props == it.props && r.isWin == it.isWin
    ensures r.parent.className == it.parent.className
    decreases |gs|
  {
    if |gs| == 0 then it else StateContainer(Run(it, gs[..|gs| - 1]), gs[|gs| - 1])
  }

  /** A scroll tick keeps the class attribute free of duplicates. */
  lemma StateContainerKeepsNoDuplicates(it: Instance, g: Geometry)
    requires ValidClasses(it.props)
    requires NoDuplicates(it.el.className)
    ensures NoDuplicates(StateContainer(it, g).el.className)
  {
    FreshOffsetsWellFormed(it, g);
    ManageStateKeepsNoDuplicates(it.(offsets := ComputeScrollOffsets(it.isWin, it.props, g)), g.scroll, g.elClientHeight);
  }

  /** Any number of ticks keep the class attribute free of duplicates. */
  lemma {:induction false} RunKeepsNoDuplicates(it: Instance, gs: seq<Geometry>)
    requires ValidClasses(it.props)
    requires NoDuplicates(it.el.className)
    ensures NoDuplicates(Run(it, gs).el.className)
    decreases |gs|
  {
    if |gs| > 0 {
      var init := gs[..|gs| - 1];
      RunKeepsNoDuplicates(it, init);
      StateContainerKeepsNoDuplicates(Run(it, init), gs[|gs| - 1]);
    }
  }

  /**
    After any run, each additional class is on the element exactly when the
    last reading's scroll position has reached its threshold.
  */
  lemma RunModifiersFollowScroll(it: Instance, gs: seq<Geometry>)
    requires ValidClasses(it.props)
    requires NoDuplicates(it.el.className)
    requires |gs| > 0
    ensures var r := Run(it, gs);
            var g := gs[|gs| - 1];
            forall i :: 0 <= i < |r.offsets.modifiers| ==>
              (r.offsets.modifiers[i].cls in Split(r.el.className) <==> g.scroll >= r.offsets.modifiers[i].threshold)
  {
    var before := Run(it, gs[..|gs| - 1]);
    var g := gs[|gs| - 1];
    RunKeepsNoDuplicates(it, gs[..|gs| - 1]);
    FreshOffsetsWellFormed(before, g);
    ModifierClassesFollowScroll(before.(offsets := ComputeScrollOffsets(before.isWin, before.props, g)), g.scroll, g.elClientHeight);
  }

  /** Names of the additional classes, as a set. */
  function AdditionalNames(p: Props): set<string>
  {
    set i | 0 <= i < |p.additionalClasses| :: p.additionalClasses[i].cls
  }

  /** A scroll tick leaves every class the library does not manage in place and in order. */
  lemma StateContainerKeepsUnmanaged(it: Instance, g: Geometry, managed: set<string>)
    requires ValidClasses(it.props)
    requires {it.props.stickyClass, it.props.stuckClass} + AdditionalNames(it.props) <= managed
    ensures Unmanaged(Split(StateContainer(it, g).el.className), managed) == Unmanaged(Split(it.el.className), managed)
  {
    var p := it.props;
    var item := it.(offsets := ComputeScrollOffsets(it.isWin, p, g));
    var mods := item.offsets.modifiers;
    FreshOffsetsWellFormed(it, g);
    forall c | c in ManagedClasses(p, mods) ensures c in managed {
      if c !in {p.stickyClass, p.stuckClass} {
        var i :| 0 <= i < |mods| && mods[i].cls == c;
        assert p.additionalClasses[i].cls == c;
        assert c in AdditionalNames(p);
      }
    }
    ManageStateKeepsUnmanaged(item, g.scroll, g.elClientHeight, managed);
  }

  /** Any number of ticks leave every class the library does not manage in place and in order. */
  lemma {:induction false} RunKeepsUnmanaged(it: Instance, gs: seq<Geometry>, managed: set<string>)
    requires ValidClasses(it.props)
    requires {it.props.stickyClass, it.props.stuckClass} + AdditionalNames(it.props) <= managed
    ensures Unmanaged(Split(Run(it, gs).el.className), managed) == Unmanaged(Split(it.el.className), managed)
    decreases |gs|
  {
    if |gs| > 0 {
      var init := gs[..|gs| - 1];
      RunKeepsUnmanaged(it, init, managed);
      StateContainerKeepsUnmanaged(Run(it, init), gs[|gs| - 1], managed);
    }
  }

  /** Teardown of the modifier classes: each one is toggled off once, in key order. */
  function RemoveModifierClasses(className: string, mods: seq<Modifier>): string
    decreases |mods|
  {
    if |mods| == 0 then className
    else RemoveModifierClasses(ToggleClasses(className, Some(mods[0].cls), None), mods[1..])
  }

  /** Toggling off modifier classes that are all absent changes nothing. */
  lemma {:induction false} RemoveModifiersAbsent(className: string, mods: seq<Modifier>)
    ensures (forall i :: 0 <= i < |mods| ==> mods[i].cls !in Split(className)) ==>
              RemoveModifierClasses(className, mods) == className
    decreases |mods|
  {
    if |mods| > 0 {
      assert forall i :: 0 <= i < |mods[1..]| ==> mods[1..][i] == mods[i + 1];
      RemoveModifiersAbsent(ToggleClasses(className, Some(mods[0].cls), None), mods[1..]);
    }
  }

  /** `tC(e, sticky)` then `tC(e, stuck)`: with neither class present, the attribute is unchanged. */
  function StripStateClasses(className: string, p: Props): (r: string)
    ensures p.stickyClass !in Split(className) && p.stuckClass !in Split(className) ==> r == className
  {
    ToggleClasses(ToggleClasses(className, Some(p.stickyClass), None), Some(p.stuckClass), None)
  }

  /** Stripping the state classes leaves neither behind and no duplicate, when none occurred twice. */
  lemma StripStateClassesClears(s0: string, p: Props)
    requires p.stickyClass != "" && p.stuckClass != ""
    requires NoDuplicates(s0)
    ensures Count(StripStateClasses(s0, p), p.stickyClass) == 0
    ensures Count(StripStateClasses(s0, p), p.stuckClass) == 0
    ensures NoDuplicates(StripStateClasses(s0, p))
  {
    var s1 := ToggleClasses(s0, Some(p.stickyClass), None);
    var s2 := ToggleClasses(s1, Some(p.stuckClass), None);
    assert Count(s0, p.stickyClass) <= 1 && Count(s0, p.stuckClass) <= 1;
    ToggleRemovedCount(s0, None, p.stickyClass);
    ToggleNoRaise(s1, Some(p.stuckClass), None, p.stickyClass);
    ToggleNoRaise(s0, Some(p.stickyClass), None, p.stuckClass);
    ToggleRemovedCount(s1, None, p.stuckClass);
    ToggleKeepsNoDuplicates(s0, Some(p.stickyClass), None);
    ToggleKeepsNoDuplicates(s1, Some(p.stuckClass), None);
  }

  /** The element's class changes of `removeInstance`: `tC(e, sticky)`, `tC(e, stuck)`, then each modifier. */
  function TeardownClasses(className: string, p: Props, mods: seq<Modifier>): string
  {
    RemoveModifierClasses(StripStateClasses(className, p), mods)
  }

  /** An attribute holding none of the sticky, stuck and modifier classes comes through teardown as it was. */
  lemma TeardownClassesAbsent(className: string, p: Props, mods: seq<Modifier>)
    requires p.stickyClass !in Split(className) && p.stuckClass !in Split(className)
    requires forall i :: 0 <= i < |mods| ==> mods[i].cls !in Split(className)
    ensures TeardownClasses(className, p, mods) == className
  {
    RemoveModifiersAbsent(StripStateClasses(className, p), mods);
  }

  /**
    `removeInstance(instance)`: the element's inline `position` and sticky edge
    are cleared, the sticky and stuck classes are removed from the element and
    the parent class from the parent, then each modifier class. Other styles,
    including `bottom` and the parent padding, are left as they are.
  */
  function RemoveInstance(it: Instance): (r: Instance)
    ensures StyleOf(r.el.style, "position") == "" && StyleOf(r.el.style, it.props.verticalPosition) == ""
    ensures SameExcept(it.el.style, r.el.style, {"position", it.props.verticalPosition})
    ensures r.parent.style == it.parent.style
    ensures r.props == it.props && r.isWin == it.isWin && r.state == it.state && r.offsets == it.offsets
  {
    var p := it.props;
    var cleared := SetStyle(it.el.style, "position", "");
    var style := SetStyle(cleared, p.verticalPosition, "");
    assert StyleOf(style, "position") == "" by {
      if p.verticalPosition != "position" {
        assert StyleOf(style, "position") == StyleOf(cleared, "position");
      }
    }
    it.(el := Node(TeardownClasses(it.el.className, p, it.offsets.modifiers), style),
        parent := it.parent.(className := ToggleClasses(it.parent.className, Some(p.parentClass), None)))
  }

  /** Removing the modifier classes never raises the tally of any class. */
  lemma {:induction false} RemoveModifiersNoRaise(s: string, mods: seq<Modifier>, c: string)
    requires c != ""
    ensures Count(RemoveModifierClasses(s, mods), c) <= Count(s, c)
    decreases |mods|
  {
    if |mods| > 0 {
      var s1 := ToggleClasses(s, Some(mods[0].cls), None);
      ToggleNoRaise(s, Some(mods[0].cls), None, c);
      RemoveModifiersNoRaise(s1, mods[1..], c);
    }
  }

  /** Removing the modifier classes leaves none of them behind, provided none occurred twice. */
  lemma {:induction false} RemoveModifiersClears(s: string, mods: seq<Modifier>)
    requires forall i :: 0 <= i < |mods| ==> mods[i].cls != "" && Count(s, mods[i].cls) <= 1
    ensures forall i :: 0 <= i < |mods| ==> Count(RemoveModifierClasses(s, mods), mods[i].cls) == 0
    decreases |mods|
  {
    if |mods| > 0 {
      var s1 := ToggleClasses(s, Some(mods[0].cls), None);
      var rest := mods[1..];
      ToggleRemovedCount(s, None, mods[0].cls);
      forall j | 0 <= j < |rest| ensures rest[j].cls != "" && Count(s1, rest[j].cls) <= 1 {
        assert rest[j] == mods[j + 1];
        ToggleNoRaise(s, Some(mods[0].cls), None, rest[j].cls);
      }
      RemoveModifiersClears(s1, rest);
      RemoveModifiersNoRaise(s1, rest, mods[0].cls);
      forall i | 0 <= i < |mods| ensures Count(RemoveModifierClasses(s, mods), mods[i].cls) == 0 {
        if i > 0 {
          assert mods[i] == rest[i - 1];
        }
      }
    }
  }

  /** Removing the modifier classes leaves every unmanaged class in place and in order. */
  lemma {:induction false} RemoveModifiersKeepUnmanaged(s: string, mods: seq<Modifier>, managed: set<string>)
    requires forall i :: 0 <= i < |mods| ==> mods[i].cls in managed
    ensures Unmanaged(Split(RemoveModifierClasses(s, mods)), managed) == Unmanaged(Split(s), managed)
    decreases |mods|
  {
    if |mods| > 0 {
      ToggleKeepsUnmanaged(s, Some(mods[0].cls), None, managed);
      RemoveModifiersKeepUnmanaged(ToggleClasses(s, Some(mods[0].cls), None), mods[1..], managed);
    }
  }

  /** The element's teardown classes: none of the sticky, stuck or modifier classes is left, provided none occurred twice. */
  lemma TeardownClassesClear(s0: string, p: Props, mods: seq<Modifier>)
    requires p.stickyClass != "" && p.stuckClass != "" && ValidNames(mods)
    requires NoDuplicates(s0)
    ensures var r := TeardownClasses(s0, p, mods);
            && p.stickyClass !in Split(r)
            && p.stuckClass !in Split(r)
            && (forall i :: 0 <= i < |mods| ==> mods[i].cls !in Split(r))
  {
    var s2 := StripStateClasses(s0, p);
    StripStateClassesClears(s0, p);
    RemoveModifiersKeepAbsent(s2, mods, p.stickyClass);
    RemoveModifiersKeepAbsent(s2, mods, p.stuckClass);
    forall i | 0 <= i < |mods| ensures mods[i].cls != "" && Count(s2, mods[i].cls) <= 1 {
      assert ValidToken(mods[i].cls);
    }
    ModifiersCleared(s2, mods);
  }

  /** Removing the modifier classes brings back no class that was absent. */
  lemma RemoveModifiersKeepAbsent(s: string, mods: seq<Modifier>, c: string)
    requires c != "" && Count(s, c) == 0
    ensures c !in Split(RemoveModifierClasses(s, mods))
  {
    RemoveModifiersNoRaise(s, mods, c);
  }

  /**
    After `removeInstance` none of the sticky, stuck or modifier classes is on
    the element and the parent class is off the parent, provided none of them
    occurred twice.
  */
  lemma TeardownRemovesManaged(it: Instance)
    requires WellFormed(it)
    requires NoDuplicates(it.el.className)
    requires ValidToken(it.props.parentClass) && Count(it.parent.className, it.props.parentClass) <= 1
    ensures var r := RemoveInstance(it);
            && it.props.stickyClass !in Split(r.el.className)
            && it.props.stuckClass !in Split(r.el.className)
            && (forall i :: 0 <= i < |it.offsets.modifiers| ==> it.offsets.modifiers[i].cls !in Split(r.el.className))
            && it.props.parentClass !in Split(r.parent.className)
  {
    TeardownClassesClear(it.el.className, it.props, it.offsets.modifiers);
    ToggleRemovedCount(it.parent.className, None, it.props.parentClass);
  }

  /** `removeInstance` leaves every class the library does not manage in place and in order. */
  lemma TeardownKeepsUnmanaged(it: Instance, managed: set<string>)
    requires ManagedClasses(it.props, it.offsets.modifiers) <= managed
    ensures Unmanaged(Split(RemoveInstance(it).el.className), managed) == Unmanaged(Split(it.el.className), managed)
  {
    var p := it.props;
    var mods := it.offsets.modifiers;
    var s1 := ToggleClasses(it.el.className, Some(p.stickyClass), None);
    var s2 := ToggleClasses(s1, Some(p.stuckClass), None);
    assert p.stickyClass in managed && p.stuckClass in managed;
    forall i | 0 <= i < |mods| ensures mods[i].cls in managed {
      assert mods[i].cls in ManagedClasses(p, mods);
    }
    ToggleKeepsUnmanaged(it.el.className, Some(p.stickyClass), None, managed);
    ToggleKeepsUnmanaged(s1, Some(p.stuckClass), None, managed);
    RemoveModifiersKeepUnmanaged(s2, mods, managed);
  }

  /**
    Registering an instance, any number of scroll ticks and then the teardown
    give the parent back exactly the class attribute it had, when the parent
    class is a single token not already on the parent.
  */
  lemma TeardownRestoresParentClass(el: Node, parent: Node, props: Props, g: Geometry, gs: seq<Geometry>)
    requires ValidToken(props.parentClass)
    requires props.parentClass !in Split(parent.className)
    ensures RemoveInstance(Run(AddInstance(el, parent, props, g), gs)).parent.className == parent.className
  {
    AppendThenRemove(parent.className, props.parentClass);
  }

  /** Clearing `position` and the sticky edge of a style that already reads empty there changes nothing. */
  lemma ClearedStyleStable(m: Style, vp: string)
    requires StyleOf(m, "position") == "" && StyleOf(m, vp) == ""
    requires "position" in m && vp in m
    ensures SetStyle(SetStyle(m, "position", ""), vp, "") == m
  {
  }

  /** A second `removeInstance` on a torn-down instance changes nothing. */
  lemma TeardownIdempotent(it: Instance)
    requires WellFormed(it)
    requires NoDuplicates(it.el.className)
    requires ValidToken(it.props.parentClass) && Count(it.parent.className, it.props.parentClass) <= 1
    ensures RemoveInstance(RemoveInstance(it)) == RemoveInstance(it)
  {
    var p := it.props;
    var r := RemoveInstance(it);
    TeardownRemovesManaged(it);
    assert ToggleClasses(r.parent.className, Some(p.parentClass), None) == r.parent.className;
    TeardownClassesAbsent(r.el.className, p, it.offsets.modifiers);
    ClearedStyleStable(r.el.style, p.verticalPosition);
  }

  /**
    Two instances sharing a parent leave the parent class on it twice. Each
    teardown then takes one copy away, so a second `removeInstance` on the
    same instance is not a no-op: it strips the copy the other instance owns.
  */
  lemma SharedParentTeardown(it: Instance, s: string)
    requires ValidToken(it.props.parentClass) && it.props.parentClass !in Split(s)
    requires it.parent.className == s + " " + it.props.parentClass + " " + it.props.parentClass
    ensures RemoveInstance(it).parent.className == s + " " + it.props.parentClass
    ensures RemoveInstance(RemoveInstance(it)).parent.className == s
    ensures RemoveInstance(RemoveInstance(it)) != RemoveInstance(it)
  {
    var pc := it.props.parentClass;
    RemoveFirstOfTwo(s, pc);
    AppendThenRemove(s, pc);
    assert |s| < |s + " " + pc|;
  }

  /** What the constructor leaves for one element: inline styles only, or a managed instance. */
  datatype Registration = Plain(el: Node) | Managed(instance: Instance)

  /**
    The constructor's body for one element: with styles on and a top edge, `top`
    gets the offset; with native sticky positioning and no sticky classes asked
    for, `position` is set and nothing else happens; otherwise `position` is set
    for native sticky and the element becomes an instance.
  */
  function Register(el: Node, parent: Node, props: Props, g: Geometry): (r: Registration)
    ensures r.Plain? <==> props.positionVal != "fixed" && !props.useStickyClasses
    ensures r.Plain? ==>
              && r.el.className == el.className
              && StyleOf(r.el.style, "position") == props.positionVal
              && (props.verticalPosition == "top" && !props.noStyles ==>
                    StyleOf(r.el.style, "top") == Px(props.stickyBitStickyOffset))
              && SameExcept(el.style, r.el.style, {"position", "top"})
    ensures r.Managed? ==>
              && r.instance.parent.className == parent.className + " " + props.parentClass
              && r.instance.props == props
              && (r.instance.isWin <==> props.scrollEl == Window)
              && r.instance.state != Stuck
              && SameExcept(el.style, r.instance.el.style, ElementKeys(props))
  {
    var vp := props.verticalPosition;
    var topped := if vp == "top" && !props.noStyles then SetStyle(el.style, vp, Px(props.stickyBitStickyOffset)) else el.style;
    if props.positionVal != "fixed" && !props.useStickyClasses then
      assert StyleOf(SetStyle(topped, "position", props.positionVal), "top") == StyleOf(topped, "top") by {
        assert "position" != "top";
      }
      Plain(el.(style := SetStyle(topped, "position", props.positionVal)))
    else
      var positioned := if props.positionVal != "fixed" then SetStyle(topped, "position", props.positionVal) else topped;
      Managed(AddInstance(el.(style := positioned), parent, props, g))
  }

  /**
    A managed registration followed by any ticks and the teardown gives the
    parent back the class attribute it had, when the parent class is a single
    token not already there.
  */
  lemma RegisterThenRemove(el: Node, parent: Node, props: Props, g: Geometry, gs: seq<Geometry>)
    requires ValidToken(props.parentClass) && props.parentClass !in Split(parent.className)
    ensures var r := Register(el, parent, props, g);
            r.Managed? ==> RemoveInstance(Run(r.instance, gs)).parent.className == parent.className
  {
    AppendThenRemove(parent.className, props.parentClass);
  }

  /**
    A managed registration of a well-configured element is ready for the run
    and teardown properties: its props meet `ValidClasses` and its class
    attribute still has no repeated class.
  */
  lemma RegisterReady(el: Node, parent: Node, props: Props, g: Geometry)
    requires ValidClasses(props) && NoDuplicates(el.className)
    ensures var r := Register(el, parent, props, g);
            r.Managed? ==> ValidClasses(r.instance.props) && NoDuplicates(r.instance.el.className)
  {
    var vp := props.verticalPosition;
    var topped := if vp == "top" && !props.noStyles then SetStyle(el.style, vp, Px(props.stickyBitStickyOffset)) else el.style;
    var positioned := if props.positionVal != "fixed" then SetStyle(topped, "position", props.positionVal) else topped;
    var isWin := props.scrollEl == Window;
    var o := ComputeScrollOffsets(isWin, props, g);
    var item := Instance(el.(style := positioned), parent.(className := parent.className + " " + props.parentClass), props, isWin, Default, o);
    FreshOffsetsWellFormed(item, g);
    assert item.(offsets := ComputeScrollOffsets(item.isWin, props, g)) == item;
    ManageStateKeepsNoDuplicates(item, g.scroll, g.elClientHeight);
  }

  /**
    A window reading in which the parent sits at document offset 100, the parent
    is 350 pixels tall and the element 50.
  */
  function Reading(scroll: int): Geometry
  {
    Geometry(scroll, 100 - scroll, 0, 350, 50, 50)
  }

  /** Every reading of the scenario gives the range 100 to 400 and no modifiers. */
  lemma ReadingOffsets(scroll: int)
    ensures ComputeScrollOffsets(true, FixedDefaults, Reading(scroll)) == Offsets(0, 100, 400, [])
  {
    var o := ComputeScrollOffsets(true, FixedDefaults, Reading(scroll));
    assert |o.modifiers| == 0;
  }

  /** The element's own class attribute in the scenario. */
  const Box := "box"

  /** An instance of the scenario: element classes `cls`, state `state`, the registered parent. */
  ghost predicate InScenario(it: Instance, cls: string, state: State)
  {
    && it.el.className == cls
    && it.state == state
    && it.parent.className == "wrap" + " " + DefaultParentClass
    && it.props == FixedDefaults
    && it.isWin
    && it.offsets == Offsets(0, 100, 400, [])
  }

  /** Registration at scroll 50 leaves the element in its default state. */
  lemma ScenarioRegister()
    ensures InScenario(AddInstance(Node(Box, map[]), Node("wrap", map[]), FixedDefaults, Reading(50)), Box, Default)
  {
    ReadingOffsets(50);
  }

  /** The scenario's class names are distinct single tokens. */
  lemma ScenarioNames()
    ensures ValidToken(DefaultStickyClass) && ValidToken(DefaultStuckClass) && DefaultStickyClass != DefaultStuckClass
    ensures Split(Box) == [Box]
    ensures DefaultStickyClass !in Split(Box) && DefaultStuckClass !in Split(Box)
  {
    SplitToken(Box);
  }

  /** The two lengths the scenario writes. */
  lemma ScenarioLengths()
    ensures Px(0) == "0px" && Px(50) == "50px"
  {
    assert NatToString(50) == NatToString(5) + [DigitChar(0)];
  }

  /** A scenario tick is `manageState` at the scenario's unchanged thresholds. */
  lemma ScenarioTick(it: Instance, cls: string, state: State, scroll: int)
    requires InScenario(it, cls, state)
    ensures StateContainer(it, Reading(scroll)) == ApplyTransition(it, scroll, 50)
  {
    ReadingOffsets(scroll);
    assert it.(offsets := ComputeScrollOffsets(true, FixedDefaults, Reading(scroll))) == it;
  }

  /** From default or stuck, scroll 200 makes the element sticky: `position: fixed`, `top: 0px`, parent padding 50px. */
  lemma ScenarioStick(it: Instance)
    requires InScenario(it, Box, Default) || InScenario(it, Box + " " + DefaultStuckClass, Stuck)
    ensures var r := StateContainer(it, Reading(200));
            && InScenario(r, Box + " " + DefaultStickyClass, Sticky)
            && StyleOf(r.el.style, "position") == "fixed" && StyleOf(r.el.style, "top") == "0px"
            && StyleOf(r.parent.style, "paddingTop") == "50px"
  {
    var p := FixedDefaults;
    ScenarioTick(it, it.el.className, it.state, 200);
    assert ApplyTransition(it, 200, 50) == EnterSticky(it, 50);
    ScenarioNames();
    if it.state == Default {
      AppendClass(Box, Some(p.stuckClass), p.stickyClass);
    } else {
      SwapLastClass(Box, p.stuckClass, p.stickyClass);
    }
    ScenarioLengths();
  }

  /** From sticky, scroll 450 makes the element stuck: `bottom: 0`, `position: absolute`. */
  lemma ScenarioStuck(it: Instance)
    requires InScenario(it, Box + " " + DefaultStickyClass, Sticky)
    ensures var r := StateContainer(it, Reading(450));
            && InScenario(r, Box + " " + DefaultStuckClass, Stuck)
            && StyleOf(r.el.style, "bottom") == "0" && StyleOf(r.el.style, "position") == "absolute"
  {
    ScenarioTick(it, it.el.className, it.state, 450);
    assert ApplyTransition(it, 450, 50) == EnterStuck(it, 50);
    ScenarioNames();
    SwapLastClass(Box, FixedDefaults.stickyClass, FixedDefaults.stuckClass);
  }

  /** From stuck, scroll 30 changes nothing: stuck never goes straight to default. */
  lemma ScenarioStayStuck(it: Instance)
    requires InScenario(it, Box + " " + DefaultStuckClass, Stuck)
    ensures StateContainer(it, Reading(30)) == it
  {
    ScenarioTick(it, it.el.className, it.state, 30);
  }

  /** From sticky, scroll 30 returns the element to default with its original class attribute. */
  lemma ScenarioUnstick(it: Instance)
    requires InScenario(it, Box + " " + DefaultStickyClass, Sticky)
    ensures var r := StateContainer(it, Reading(30));
            && InScenario(r, Box, Default)
            && StyleOf(r.el.style, "position") == "" && StyleOf(r.parent.style, "paddingTop") == ""
  {
    ScenarioTick(it, it.el.className, it.state, 30);
    assert ApplyTransition(it, 30, 50) == EnterDefault(it);
    ScenarioNames();
    AppendThenRemove(Box, FixedDefaults.stickyClass);
  }

  /**
    Scrolling down and back with fixed positioning: default at 50, sticky at
    200, stuck at 450, still stuck at 30, sticky again at 200, default at 30
    with the class attribute the element started with.
  */
  lemma ScrollScenario()
    ensures var it0 := AddInstance(Node(Box, map[]), Node("wrap", map[]), FixedDefaults, Reading(50));
            var it1 := StateContainer(it0, Reading(200));
            var it2 := StateContainer(it1, Reading(450));
            var it3 := StateContainer(it2, Reading(30));
            var it4 := StateContainer(it3, Reading(200));
            var it5 := StateContainer(it4, Reading(30));
            && it0.state == Default && it1.state == Sticky && it2.state == Stuck
            && it3.state == Stuck && it4.state == Sticky && it5.state == Default
            && it5.el.className == Box
  {
    var it0 := AddInstance(Node(Box, map[]), Node("wrap", map[]), FixedDefaults, Reading(50));
    ScenarioRegister();
    ScenarioStick(it0);
    var it1 := StateContainer(it0, Reading(200));
    ScenarioStuck(it1);
    var it2 := StateContainer(it1, Reading(450));
    ScenarioStayStuck(it2);
    ScenarioStick(it2);
    var it4 := StateContainer(it2, Reading(200));
    ScenarioUnstick(it4);
  }

  /**
    What `addInstance` leaves when `scrollEl` is a selector, as the code is
    written: the parent class is appended, the container element is resolved,
    but `computeScrollOffsets` and `manageState` then read `scrollTop` and
    `getBoundingClientRect` from the selector string itself.
    - `Threw`: with `fixed` positioning, the string has no `getBoundingClientRect`,
      so registration throws after the parent class was appended and no scroll
      listener is installed;
    - `Inert`: otherwise the scroll reads `undefined`, every threshold is `NaN`,
      no state guard ever holds and each modifier class is toggled off on every
      call; `mods` names those classes (their thresholds play no part);
    - `Live`: a window instance, which the code reads correctly.
  */
  datatype Outcome = Threw(parent: Node) | Inert(el: Node, parent: Node, mods: seq<Modifier>) | Live(it: Instance)

  /** When no modifier class occurred twice, removing them all leaves none behind. */
  lemma ModifiersCleared(s: string, mods: seq<Modifier>)
    ensures (forall i :: 0 <= i < |mods| ==> mods[i].cls != "" && Count(s, mods[i].cls) <= 1) ==>
              forall i :: 0 <= i < |mods| ==> mods[i].cls !in Split(RemoveModifierClasses(s, mods))
  {
    if forall i :: 0 <= i < |mods| ==> mods[i].cls != "" && Count(s, mods[i].cls) <= 1 {
      RemoveModifiersClears(s, mods);
    }
  }

  /** The modifier entries built from `NaN` thresholds: one per additional class, in key order. */
  function UnreachableModifiers(ac: seq<Threshold>): (mods: seq<Modifier>)
    ensures |mods| == |ac| && forall i :: 0 <= i < |ac| ==> mods[i].cls == ac[i].cls
  {
    seq(|ac|, i requires 0 <= i < |ac| => Modifier(ac[i].cls, 0))
  }

  /** `addInstance` as written: a selector container is never measured. */
  function AddInstanceAsWritten(el: Node, parent: Node, props: Props, g: Geometry): (r: Outcome)
    ensures r.Live? <==> props.scrollEl == Window
    ensures r.Live? ==> r.it == AddInstance(el, parent, props, g)
    ensures r.Threw? <==> props.scrollEl != Window && props.positionVal == "fixed"
    ensures !r.Live? ==> r.parent == parent.(className := parent.className + " " + props.parentClass)
    ensures r.Inert? ==> r.el.style == el.style && r.mods == UnreachableModifiers(props.additionalClasses)
    ensures r.Inert? && (forall i :: 0 <= i < |r.mods| ==> r.mods[i].cls !in Split(el.className)) ==> r.el == el
    ensures r.Inert? && (forall i :: 0 <= i < |r.mods| ==> r.mods[i].cls != "" && Count(el.className, r.mods[i].cls) <= 1) ==>
              forall i :: 0 <= i < |r.mods| ==> r.mods[i].cls !in Split(r.el.className)
  {
    var parent' := parent.(className := parent.className + " " + props.parentClass);
    if props.scrollEl == Window then Live(AddInstance(el, parent, props, g))
    else if props.positionVal == "fixed" then Threw(parent')
    else
      var mods := UnreachableModifiers(props.additionalClasses);
      RemoveModifiersAbsent(el.className, mods);
      ModifiersCleared(el.className, mods);
      Inert(el.(className := RemoveModifierClasses(el.className, mods)), parent', mods)
  }

  /**
    The scroll handler as written on an outcome: a live instance takes its
    tick, an inert one toggles its modifier classes off again, and a failed
    registration has no handler at all.
  */
  function TickAsWritten(o: Outcome, g: Geometry): (r: Outcome)
    ensures r.Threw? <==> o.Threw?
    ensures r.Live? <==> o.Live?
    ensures o.Live? ==> r.it == StateContainer(o.it, g)
    ensures o.Threw? ==> r == o
    ensures o.Inert? ==> r.el.style == o.el.style && r.parent == o.parent && r.mods == o.mods
    ensures o.Inert? && (forall i :: 0 <= i < |o.mods| ==> o.mods[i].cls != "" && Count(o.el.className, o.mods[i].cls) <= 1) ==>
              forall i :: 0 <= i < |o.mods| ==> o.mods[i].cls !in Split(r.el.className)
  {
    match o
    case Threw(_) => o
    case Inert(el, parent, mods) =>
      ModifiersCleared(el.className, mods);
      Inert(el.(className := RemoveModifierClasses(el.className, mods)), parent, mods)
    case Live(it) => Live(StateContainer(it, g))
  }

  /** `TickAsWritten` over a sequence of readings, the last reading handled last. */
  function RunAsWritten(o: Outcome, gs: seq<Geometry>): (r: Outcome)
    ensures r.Threw? <==> o.Threw?
    ensures r.Live? <==> o.Live?
    ensures o.Live? ==> r.it == Run(o.it, gs)
    decreases |gs|
  {
    if |gs| == 0 then o else TickAsWritten(RunAsWritten(o, gs[..|gs| - 1]), gs[|gs| - 1])
  }

  /**
    With a selector container, the element never sticks, whatever is
    scrolled: either registration threw, or no inline style is ever written to
    it and no class of it ever gains an occurrence, the sticky class included.
  */
  lemma {:induction false} SelectorNeverSticks(el: Node, parent: Node, props: Props, g: Geometry, gs: seq<Geometry>)
    requires props.scrollEl != Window
    ensures var r := RunAsWritten(AddInstanceAsWritten(el, parent, props, g), gs);
            || r.Threw?
            || (&& r.Inert? && r.el.style == el.style
                && forall c :: c != "" ==> Count(r.el.className, c) <= Count(el.className, c))
    decreases |gs|
  {
    var o := AddInstanceAsWritten(el, parent, props, g);
    if |gs| == 0 {
      if o.Inert? {
        forall c | c != "" ensures Count(o.el.className, c) <= Count(el.className, c) {
          RemoveModifiersNoRaise(el.className, o.mods, c);
        }
      }
    } else {
      var gs' := gs[..|gs| - 1];
      SelectorNeverSticks(el, parent, props, g, gs');
      var prev := RunAsWritten(o, gs');
      if prev.Inert? {
        var r := TickAsWritten(prev, gs[|gs| - 1]);
        forall c | c != "" ensures Count(r.el.className, c) <= Count(el.className, c) {
          RemoveModifiersNoRaise(prev.el.className, prev.mods, c);
        }
      }
    }
  }

  /** Native sticky positioning with sticky classes, in the container matching `.scroller`. */
  const SelectorProps := FixedDefaults.(scrollEl := Element(".scroller"), positionVal := "sticky", useStickyClasses := true)

  /**
    The same registration, as intended and as written, with the container
    scrolled 150 pixels and the parent's top 100 pixels above the viewport:
    measured against the resolved container the range is 50 to 350 and the
    element is sticky at once; as written it is inert and holds no sticky class.
  */
  lemma SelectorScenario()
    ensures AddInstance(Node(Box, map[]), Node("wrap", map[]), SelectorProps, Geometry(150, -100, 0, 350, 50, 50)).state == Sticky
    ensures var r := AddInstanceAsWritten(Node(Box, map[]), Node("wrap", map[]), SelectorProps, Geometry(150, -100, 0, 350, 50, 50));
            r.Inert? && r.el.className == Box && DefaultStickyClass !in Split(r.el.className)
  {
    ScenarioNames();
  }

  /** A custom container whose top is 20 pixels down, with a configured offset of 10, yields an offset of 30. */
  lemma ContainerOffsetScenario(p: Props, g: Geometry)
    requires p.positionVal == "fixed" && p.stickyBitStickyOffset == 10 && g.containerTop == 20
    ensures ComputeScrollOffsets(false, p, g).offset == 30
  {
  }
}

=== FILE: offsets.dfy ===
/**
  The offset calculator `computeScrollOffsets` of dist/stickybits.js.

  Every DOM read is a field of `Geometry`; every value is whole pixels.
*/
module Offsets {
  import opened Config

  /**
    One reading of the page at a scroll tick:
    - `scroll`: the container's scroll offset (`scrollY || pageYOffset` of the window,
      or `scrollTop` of the resolved container element);
    - `parentTop`, `containerTop`: `getBoundingClientRect().top` of the parent and
      of the resolved container element (the code as written reads both from the
      `scrollEl` option itself; see `Lifecycle.AddInstanceAsWritten`);
    - `parentHeight`, `elHeight`: `offsetHeight` of the parent and of the element;
    - `elClientHeight`: `clientHeight` of the element (used for parent padding).
  */
  datatype Geometry = Geometry(
    scroll: int,
    parentTop: int,
    containerTop: int,
    parentHeight: int,
    elHeight: int,
    elClientHeight: int)

  /** `it.modifiers[cls] = { threshold }`: an extra class and where it switches on. */
  datatype Modifier = Modifier(cls: string, threshold: int)

  /** The thresholds an instance carries between ticks. */
  datatype Offsets = Offsets(offset: int, stickyStart: int, stickyStop: int, modifiers: seq<Modifier>)

  /** Does the calculator measure against a custom container's own top edge? */
  predicate UsesContainerEdge(isWin: bool, p: Props)
  {
    !isWin && p.positionVal == "fixed"
  }

  /**
    `computeScrollOffsets(item)`: the start, stop and offset for the current
    geometry, and the modifier list rebuilt from scratch, one entry per
    additional class in key order.
  */
  function ComputeScrollOffsets(isWin: bool, p: Props, g: Geometry): (o: Offsets)
    ensures !UsesContainerEdge(isWin, p) ==>
              o.stickyStart == g.scroll + g.parentTop && o.offset == p.stickyBitStickyOffset
    ensures UsesContainerEdge(isWin, p) ==>
              o.stickyStart == g.parentTop - g.containerTop && o.offset == g.containerTop + p.stickyBitStickyOffset
    ensures o.stickyStop - o.stickyStart == g.parentHeight - g.elHeight + o.offset
    ensures |o.modifiers| == |p.additionalClasses|
    ensures forall i :: 0 <= i < |o.modifiers| ==>
              o.modifiers[i].cls == p.additionalClasses[i].cls &&
              o.modifiers[i].threshold - o.stickyStart == p.additionalClasses[i].delta
  {
    var ac := p.additionalClasses;
    var scrollElOffset := if UsesContainerEdge(isWin, p) then g.containerTop else 0;
    var stickyStart := if UsesContainerEdge(isWin, p) then g.parentTop - scrollElOffset else g.scroll + g.parentTop;
    var offset := scrollElOffset + p.stickyBitStickyOffset;
    var stickyStop := stickyStart + g.parentHeight - (g.elHeight - offset);
    var modifiers := seq(|ac|, i requires 0 <= i < |ac| => Modifier(ac[i].cls, stickyStart + ac[i].delta));
    Offsets(offset, stickyStart, stickyStop, modifiers)
  }

  /**
    The rebuilt modifiers name exactly the configured additional classes, in
    order, whatever the geometry of the tick.
  */
  lemma ModifierNamesMatchOptions(isWin: bool, p: Props, g: Geometry, g': Geometry)
    ensures var a := ComputeScrollOffsets(isWin, p, g).modifiers;
            var b := ComputeScrollOffsets(isWin, p, g').modifiers;
            && |a| == |b| == |p.additionalClasses|
            && forall i :: 0 <= i < |a| ==> a[i].cls == b[i].cls == p.additionalClasses[i].cls
  {
  }

  /**
    Against the window, the start is a document coordinate: the parent's viewport
    top falls by exactly what the page scrolled, so start and stop do not move
    while scrolling.
  */
  lemma WindowStartIsStable(p: Props, g: Geometry, g': Geometry, documentTop: int)
    requires g.parentTop == documentTop - g.scroll && g'.parentTop == documentTop - g'.scroll
    requires g.parentHeight == g'.parentHeight && g.elHeight == g'.elHeight
    ensures ComputeScrollOffsets(true, p, g).stickyStart == documentTop
    ensures ComputeScrollOffsets(true, p, g) == ComputeScrollOffsets(true, p, g')
  {
  }

  /** The sticky range is non-empty exactly when the parent is at least as tall as the element less the offset. */
  lemma StartNotAfterStop(isWin: bool, p: Props, g: Geometry)
    ensures var o := ComputeScrollOffsets(isWin, p, g);
            o.stickyStart <= o.stickyStop <==> g.elHeight - o.offset <= g.parentHeight
  {
  }
}

=== FILE: state_machine.dfy ===
/**
  The three-state machine `manageState` of dist/stickybits.js.

  A call decides the next state from the scroll position and the instance's
  thresholds, applies that transition's class and style effects, and then sets
  every modifier class by its own threshold. The animation-frame deferral of the
  effects is taken as running at once.
*/
module StateMachine {
  import opened Dom
  import opened ClassTokens
  import opened Config
  import opened Offsets

  datatype State = Default | Sticky | Stuck

  /** `item`: the element, its parent, the shared props, the container kind, the state and the thresholds. */
  datatype Instance = Instance(el: Node, parent: Node, props: Props, isWin: bool, state: State, offsets: Offsets)

  /**
    The state decision of `manageState`, guards in the source's priority order:
    entering the sticky range from default or stuck, leaving it upwards, leaving
    it downwards.
  */
  function NextState(state: State, scroll: int, start: int, stop: int): (r: State)
    ensures state == Default ==> r != Stuck
    ensures state == Stuck ==> r != Default
    ensures r == Sticky ==> start < scroll < stop
    ensures r == Default && state != Default ==> scroll <= start
    ensures r == Stuck && state != Stuck ==> scroll >= stop
  {
    var notSticky := start < scroll < stop && (state == Default || state == Stuck);
    var isSticky := scroll <= start && state == Sticky;
    var isStuck := scroll >= stop && state == Sticky;
    if notSticky then Sticky
    else if isSticky then Default
    else if isStuck then Stuck
    else state
  }

  /** The transition table, row by row, including the tie-break when both exits hold. */
  lemma NextStateTable(state: State, scroll: int, start: int, stop: int)
    ensures (state == Default || state == Stuck) && start < scroll < stop ==> NextState(state, scroll, start, stop) == Sticky
    ensures state == Sticky && scroll <= start ==> NextState(state, scroll, start, stop) == Default
    ensures state == Sticky && start < scroll && scroll >= stop ==> NextState(state, scroll, start, stop) == Stuck
    ensures state == Sticky && start < scroll < stop ==> NextState(state, scroll, start, stop) == Sticky
    ensures state != Sticky && !(start < scroll < stop) ==> NextState(state, scroll, start, stop) == state
  {
  }

  /** A second decision at the same scroll position and thresholds keeps the state. */
  lemma NextStateIdempotent(state: State, scroll: int, start: int, stop: int)
    ensures var r := NextState(state, scroll, start, stop);
            NextState(r, scroll, start, stop) == r
  {
  }

  /**
    Because default never goes straight to stuck (nor stuck to default), a jump
    past the whole range in one tick leaves the state where it was.
  */
  lemma JumpsKeepState(scroll: int, start: int, stop: int)
    ensures scroll >= stop && scroll > start ==> NextState(Default, scroll, start, stop) == Default
    ensures scroll <= start ==> NextState(Stuck, scroll, start, stop) == Stuck
  {
  }

  /** The style properties of the element a transition may write. */
  function ElementKeys(p: Props): set<string>
  {
    {"position", "bottom", "top", p.verticalPosition}
  }

  /** Element style after the `notSticky` branch: the resolved position, and unless styles are off, `bottom` cleared and the sticky edge at the offset. */
  function StickyElementStyle(m: Style, p: Props): (r: Style)
    ensures p.noStyles || p.verticalPosition != "position" ==> StyleOf(r, "position") == p.positionVal
    ensures !p.noStyles ==> StyleOf(r, p.verticalPosition) == Px(p.stickyBitStickyOffset)
    ensures !p.noStyles && p.verticalPosition != "bottom" ==> StyleOf(r, "bottom") == ""
    ensures p.noStyles ==> SameExcept(m, r, {"position"})
    ensures SameExcept(m, r, {"position", "bottom", p.verticalPosition})
  {
    var positioned := SetStyle(m, "position", p.positionVal);
    if p.noStyles then positioned
    else
      var cleared := SetStyle(positioned, "bottom", "");
      assert StyleOf(cleared, "position") == p.positionVal by {
        assert "position" != "bottom";
      }
      SetStyle(cleared, p.verticalPosition, Px(p.stickyBitStickyOffset))
  }

  /** Parent style after the `notSticky` branch: padding reserves the element's height under fixed positioning. */
  function StickyParentStyle(m: Style, p: Props, clientHeight: int): (r: Style)
    ensures !p.noStyles && p.positionVal == "fixed" ==> StyleOf(r, p.paddingPosition) == Px(clientHeight)
    ensures p.noStyles || p.positionVal != "fixed" ==> r == m
    ensures SameExcept(m, r, {p.paddingPosition})
  {
    if !p.noStyles && p.positionVal == "fixed" then SetStyle(m, p.paddingPosition, Px(clientHeight)) else m
  }

  /** Element style after the `isSticky` branch: the inline position is cleared only under fixed positioning. */
  function DefaultElementStyle(m: Style, p: Props): (r: Style)
    ensures p.positionVal == "fixed" ==> StyleOf(r, "position") == ""
    ensures p.positionVal != "fixed" ==> r == m
    ensures SameExcept(m, r, {"position"})
  {
    if p.positionVal == "fixed" then SetStyle(m, "position", "") else m
  }

  /** Parent style after the `isSticky` branch: the padding is cleared whatever the positioning. */
  function DefaultParentStyle(m: Style, p: Props): (r: Style)
    ensures StyleOf(r, p.paddingPosition) == ""
    ensures SameExcept(m, r, {p.paddingPosition})
  {
    SetStyle(m, p.paddingPosition, "")
  }

  /** Element style after the `isStuck` branch: pinned to the parent's bottom under fixed positioning with styles on. */
  function StuckElementStyle(m: Style, p: Props): (r: Style)
    ensures p.positionVal == "fixed" && !p.noStyles ==>
              StyleOf(r, "top") == "" && StyleOf(r, "bottom") == "0" && StyleOf(r, "position") == "absolute"
    ensures p.positionVal != "fixed" || p.noStyles ==> r == m
    ensures SameExcept(m, r, {"top", "bottom", "position"})
  {
    if p.positionVal != "fixed" || p.noStyles then m
    else
      var top := SetStyle(m, "top", "");
      var bottom := SetStyle(top, "bottom", "0");
      assert StyleOf(bottom, "top") == "" by {
        assert "top" != "bottom";
      }
      assert "top" != "position" && "bottom" != "position";
      SetStyle(bottom, "position", "absolute")
  }

  /** Parent style after the `isStuck` branch: padding keeps the element's height under fixed positioning with styles on. */
  function StuckParentStyle(m: Style, p: Props, clientHeight: int): (r: Style)
    ensures p.positionVal == "fixed" && !p.noStyles ==> StyleOf(r, p.paddingPosition) == Px(clientHeight)
    ensures p.positionVal != "fixed" || p.noStyles ==> r == m
    ensures SameExcept(m, r, {p.paddingPosition})
  {
    if p.positionVal != "fixed" || p.noStyles then m else SetStyle(m, p.paddingPosition, Px(clientHeight))
  }

  /** Effects of the `notSticky` branch: `tC(e, stuck, sticky)` and the sticky styles. */
  function EnterSticky(it: Instance, clientHeight: int): (r: Instance)
    ensures r.state == Sticky
    ensures r.props == it.props && r.isWin == it.isWin && r.offsets == it.offsets
    ensures r.parent.className == it.parent.className
    ensures SameExcept(it.el.style, r.el.style, ElementKeys(it.props))
    ensures SameExcept(it.parent.style, r.parent.style, {it.props.paddingPosition})
  {
    var p := it.props;
    it.(state := Sticky,
        el := Node(ToggleClasses(it.el.className, Some(p.stuckClass), Some(p.stickyClass)), StickyElementStyle(it.el.style, p)),
        parent := it.parent.(style := StickyParentStyle(it.parent.style, p, clientHeight)))
  }

  /** Effects of the `isSticky` branch: `tC(e, sticky)` and the cleared styles. */
  function EnterDefault(it: Instance): (r: Instance)
    ensures r.state == Default
    ensures r.props == it.props && r.isWin == it.isWin && r.offsets == it.offsets
    ensures r.parent.className == it.parent.className
    ensures SameExcept(it.el.style, r.el.style, ElementKeys(it.props))
    ensures SameExcept(it.parent.style, r.parent.style, {it.props.paddingPosition})
  {
    var p := it.props;
    it.(state := Default,
        el := Node(ToggleClasses(it.el.className, Some(p.stickyClass), None), DefaultElementStyle(it.el.style, p)),
        parent := it.parent.(style := DefaultParentStyle(it.parent.style, p)))
  }

  /** Effects of the `isStuck` branch: `tC(e, sticky, stuck)` and the pinned styles. */
  function EnterStuck(it: Instance, clientHeight: int): (r: Instance)
    ensures r.state == Stuck
    ensures r.props == it.props && r.isWin == it.isWin && r.offsets == it.offsets
    ensures r.parent.className == it.parent.className
    ensures SameExcept(it.el.style, r.el.style, ElementKeys(it.props))
    ensures SameExcept(it.parent.style, r.parent.style, {it.props.paddingPosition})
  {
    var p := it.props;
    it.(state := Stuck,
        el := Node(ToggleClasses(it.el.className, Some(p.stickyClass), Some(p.stuckClass)), StuckElementStyle(it.el.style, p)),
        parent := it.parent.(style := StuckParentStyle(it.parent.style, p, clientHeight)))
  }

  /**
    The primary transition of `manageState` (guards and their effects). The new
    state is the one `NextState` decides; when no guard holds nothing changes;
    otherwise only the element's class attribute, its position-related styles and
    the parent's padding property can change.
  */
  function ApplyTransition(it: Instance, scroll: int, clientHeight: int): (r: Instance)
    ensures r.state == NextState(it.state, scroll, it.offsets.stickyStart, it.offsets.stickyStop)
    ensures r.state == it.state ==> r == it
    ensures r.props == it.props && r.isWin == it.isWin && r.offsets == it.offsets
    ensures r.parent.className == it.parent.className
    ensures SameExcept(it.el.style, r.el.style, ElementKeys(it.props))
    ensures SameExcept(it.parent.style, r.parent.style, {it.props.paddingPosition})
  {
    var start := it.offsets.stickyStart;
    var stop := it.offsets.stickyStop;
    var notSticky := start < scroll < stop && (it.state == Default || it.state == Stuck);
    var isSticky := scroll <= start && it.state == Sticky;
    var isStuck := scroll >= stop && it.state == Sticky;
    if notSticky then EnterSticky(it, clientHeight)
    else if isSticky then EnterDefault(it)
    else if isStuck then EnterStuck(it, clientHeight)
    else it
  }

  /** One modifier: `tC(e, null, cls)` at or past its threshold, `tC(e, cls)` before it. */
  function ToggleModifier(className: string, m: Modifier, scroll: int): (r: string)
    ensures ValidToken(m.cls) && scroll >= m.threshold ==> m.cls in Split(r)
    ensures (m.cls in Split(className) <==> scroll >= m.threshold) ==> r == className
  {
    if scroll >= m.threshold then
      if ValidToken(m.cls) then
        ToggleAddedCount(className, None, m.cls);
        ToggleClasses(className, None, Some(m.cls))
      else ToggleClasses(className, None, Some(m.cls))
    else ToggleClasses(className, Some(m.cls), None)
  }

  /** The modifier loop over `Object.keys(md)`, in order. */
  function ApplyModifiers(className: string, mods: seq<Modifier>, scroll: int): string
    decreases |mods|
  {
    if |mods| == 0 then className
    else ApplyModifiers(ToggleModifier(className, mods[0], scroll), mods[1..], scroll)
  }

  /** When every modifier class already matches its threshold, the loop changes nothing. */
  lemma {:induction false} ModifiersSettled(className: string, mods: seq<Modifier>, scroll: int)
    ensures (forall i :: 0 <= i < |mods| ==> (mods[i].cls in Split(className) <==> scroll >= mods[i].threshold))
            ==> ApplyModifiers(className, mods, scroll) == className
    decreases |mods|
  {
    if |mods| > 0 {
      assert forall i :: 0 <= i < |mods[1..]| ==> mods[1..][i] == mods[i + 1];
      ModifiersSettled(ToggleModifier(className, mods[0], scroll), mods[1..], scroll);
    }
  }

  /** `manageState(item)`: the primary transition, then the modifier classes. */
  function ManageState(it: Instance, scroll: int, clientHeight: int): (r: Instance)
    ensures r.state == NextState(it.state, scroll, it.offsets.stickyStart, it.offsets.stickyStop)
    ensures r.props == it.props && r.isWin == it.isWin && r.offsets == it.offsets
    ensures r.parent == ApplyTransition(it, scroll, clientHeight).parent
    ensures r.parent.className == it.parent.className
    ensures r.el.style == ApplyTransition(it, scroll, clientHeight).el.style
    ensures SameExcept(it.el.style, r.el.style, ElementKeys(it.props))
    ensures SameExcept(it.parent.style, r.parent.style, {it.props.paddingPosition})
  {
    var t := ApplyTransition(it, scroll, clientHeight);
    t.(el := t.el.(className := ApplyModifiers(t.el.className, it.offsets.modifiers, scroll)))
  }

  /** No two modifiers share a class name (they come from the keys of one object). */
  ghost predicate DistinctNames(mods: seq<Modifier>)
  {
    forall i, j :: 0 <= i < j < |mods| ==> mods[i].cls != mods[j].cls
  }

  /** Every modifier name is a single non-empty class token. */
  ghost predicate ValidNames(mods: seq<Modifier>)
  {
    forall i :: 0 <= i < |mods| ==> ValidToken(mods[i].cls)
  }

  /**
    The class configuration under which the class effects are what the names
    promise: the sticky and stuck names are single tokens, and the modifier
    names are distinct single tokens.
  */
  ghost predicate WellFormed(it: Instance)
  {
    && ValidToken(it.props.stickyClass)
    && ValidToken(it.props.stuckClass)
    && ValidNames(it.offsets.modifiers)
    && DistinctNames(it.offsets.modifiers)
  }

  /** One modifier step leaves the tally of any other class untouched. */
  lemma ModifierOtherCount(s: string, m: Modifier, scroll: int, c: string)
    requires c != "" && m.cls != c && ' ' !in m.cls
    ensures Count(ToggleModifier(s, m, scroll), c) == Count(s, c)
  {
    if scroll >= m.threshold {
      ToggleOtherCount(s, None, Some(m.cls), c);
    } else {
      ToggleOtherCount(s, Some(m.cls), None, c);
    }
  }

  /** One modifier step puts its own class where its threshold says, without duplicating it. */
  lemma ModifierOwnEffect(s: string, m: Modifier, scroll: int)
    requires ValidToken(m.cls)
    requires Count(s, m.cls) <= 1
    ensures m.cls in Split(ToggleModifier(s, m, scroll)) <==> scroll >= m.threshold
    ensures Count(ToggleModifier(s, m, scroll), m.cls) <= 1
  {
    if scroll >= m.threshold {
      ToggleAddedCount(s, None, m.cls);
    } else {
      ToggleRemovedCount(s, None, m.cls);
    }
  }

  /** The modifier loop leaves the tally of a class it does not name untouched. */
  lemma {:induction false} ModifiersKeepOtherCount(s: string, mods: seq<Modifier>, scroll: int, c: string)
    requires c != ""
    requires ValidNames(mods)
    requires forall i :: 0 <= i < |mods| ==> mods[i].cls != c
    ensures Count(ApplyModifiers(s, mods, scroll), c) == Count(s, c)
    decreases |mods|
  {
    if |mods| > 0 {
      ModifierOtherCount(s, mods[0], scroll, c);
      ModifiersKeepOtherCount(ToggleModifier(s, mods[0], scroll), mods[1..], scroll, c);
    }
  }

  /** The modifier loop never introduces a duplicate class. */
  lemma {:induction false} ModifiersKeepNoDuplicates(s: string, mods: seq<Modifier>, scroll: int)
    requires NoDuplicates(s)
    requires ValidNames(mods)
    ensures NoDuplicates(ApplyModifiers(s, mods, scroll))
    decreases |mods|
  {
    if |mods| > 0 {
      ToggleKeepsNoDuplicates(s, Some(mods[0].cls), None);
      ToggleKeepsNoDuplicates(s, None, Some(mods[0].cls));
      ModifiersKeepNoDuplicates(ToggleModifier(s, mods[0], scroll), mods[1..], scroll);
    }
  }

  /** The tail of a well-named modifier list is well named, entry for entry. */
  lemma TailNames(mods: seq<Modifier>)
    requires |mods| > 0 && ValidNames(mods) && DistinctNames(mods)
    ensures ValidNames(mods[1..]) && DistinctNames(mods[1..])
    ensures forall j :: 0 <= j < |mods[1..]| ==> mods[1..][j] == mods[j + 1]
  {
  }

  /** The first modifier's class is settled by its own toggle; the rest of the loop leaves it alone. */
  lemma ModifierHeadSurvives(s: string, mods: seq<Modifier>, scroll: int)
    requires |mods| > 0 && ValidNames(mods) && DistinctNames(mods)
    requires Count(s, mods[0].cls) <= 1
    ensures mods[0].cls in Split(ApplyModifiers(s, mods, scroll)) <==> scroll >= mods[0].threshold
  {
    var m := mods[0];
    var s1 := ToggleModifier(s, m, scroll);
    var rest := mods[1..];
    var r := ApplyModifiers(s1, rest, scroll);
    assert ApplyModifiers(s, mods, scroll) == r;
    TailNames(mods);
    ModifierOwnEffect(s, m, scroll);
    ModifiersKeepOtherCount(s1, rest, scroll, m.cls);
    assert multiset(Split(r))[m.cls] == multiset(Split(s1))[m.cls];
  }

  /**
    After the modifier loop each modifier class is present exactly when the
    scroll position has reached its threshold, provided no modifier class
    occurred twice beforehand.
  */
  lemma {:induction false} ModifiersPresentIff(s: string, mods: seq<Modifier>, scroll: int)
    requires ValidNames(mods) && DistinctNames(mods)
    requires forall i :: 0 <= i < |mods| ==> Count(s, mods[i].cls) <= 1
    ensures forall i :: 0 <= i < |mods| ==>
              (mods[i].cls in Split(ApplyModifiers(s, mods, scroll)) <==> scroll >= mods[i].threshold)
    decreases |mods|
  {
    if |mods| > 0 {
      var m := mods[0];
      var s1 := ToggleModifier(s, m, scroll);
      var rest := mods[1..];
      TailNames(mods);
      forall j | 0 <= j < |rest|
        ensures Count(s1, rest[j].cls) <= 1
      {
        ModifierOtherCount(s, m, scroll, rest[j].cls);
      }
      ModifiersPresentIff(s1, rest, scroll);
      ModifierHeadSurvives(s, mods, scroll);
      var r := ApplyModifiers(s, mods, scroll);
      assert r == ApplyModifiers(s1, rest, scroll);
      forall i | 0 <= i < |mods|
        ensures mods[i].cls in Split(r) <==> scroll >= mods[i].threshold
      {
        if i > 0 {
          assert mods[i] == rest[i - 1];
        }
      }
    }
  }

  /** The transition keeps the class attribute free of duplicates. */
  lemma TransitionKeepsNoDuplicates(it: Instance, scroll: int, clientHeight: int)
    requires WellFormed(it)
    requires NoDuplicates(it.el.className)
    ensures NoDuplicates(ApplyTransition(it, scroll, clientHeight).el.className)
  {
    var p := it.props;
    var s := it.el.className;
    var r := ApplyTransition(it, scroll, clientHeight);
    if r.state == it.state {
    } else if r.state == Sticky {
      ToggleKeepsNoDuplicates(s, Some(p.stuckClass), Some(p.stickyClass));
    } else if r.state == Default {
      ToggleKeepsNoDuplicates(s, Some(p.stickyClass), None);
    } else {
      ToggleKeepsNoDuplicates(s, Some(p.stickyClass), Some(p.stuckClass));
    }
  }

  /**
    After `manageState` every modifier class is present if and only if the
    scroll position has reached its threshold, whatever the primary state.
  */
  lemma ModifierClassesFollowScroll(it: Instance, scroll: int, clientHeight: int)
    requires WellFormed(it)
    requires NoDuplicates(it.el.className)
    ensures var r := ManageState(it, scroll, clientHeight);
            forall i :: 0 <= i < |it.offsets.modifiers| ==>
              (it.offsets.modifiers[i].cls in Split(r.el.className) <==> scroll >= it.offsets.modifiers[i].threshold)
  {
    var t := ApplyTransition(it, scroll, clientHeight);
    TransitionKeepsNoDuplicates(it, scroll, clientHeight);
    ModifiersPresentIff(t.el.className, it.offsets.modifiers, scroll);
  }

  /** `manageState` keeps the class attribute free of duplicates. */
  lemma ManageStateKeepsNoDuplicates(it: Instance, scroll: int, clientHeight: int)
    requires WellFormed(it)
    requires NoDuplicates(it.el.className)
    ensures NoDuplicates(ManageState(it, scroll, clientHeight).el.className)
  {
    var t := ApplyTransition(it, scroll, clientHeight);
    TransitionKeepsNoDuplicates(it, scroll, clientHeight);
    ModifiersKeepNoDuplicates(t.el.className, it.offsets.modifiers, scroll);
  }

  /**
    A second `manageState` at the same scroll position with unchanged geometry
    is a no-op: same state, same classes, same styles.
  */
  lemma ManageStateIdempotent(it: Instance, scroll: int, clientHeight: int)
    requires WellFormed(it)
    requires NoDuplicates(it.el.className)
    ensures var r := ManageState(it, scroll, clientHeight);
            ManageState(r, scroll, clientHeight) == r
  {
    var r := ManageState(it, scroll, clientHeight);
    var mods := it.offsets.modifiers;
    NextStateIdempotent(it.state, scroll, it.offsets.stickyStart, it.offsets.stickyStop);
    assert ApplyTransition(r, scroll, clientHeight) == r;
    assert ManageState(r, scroll, clientHeight) == r.(el := r.el.(className := ApplyModifiers(r.el.className, mods, scroll)));
    ModifierClassesFollowScroll(it, scroll, clientHeight);
    ModifiersSettled(r.el.className, mods, scroll);
  }

  /** The class effect of `tC(e, stuck, sticky)`. */
  lemma StickyClassEffect(s: string, p: Props)
    requires ValidToken(p.stickyClass) && ValidToken(p.stuckClass) && p.stickyClass != p.stuckClass
    requires Count(s, p.stuckClass) <= 1
    ensures p.stickyClass in Split(ToggleClasses(s, Some(p.stuckClass), Some(p.stickyClass)))
    ensures p.stuckClass !in Split(ToggleClasses(s, Some(p.stuckClass), Some(p.stickyClass)))
  {
    ToggleAddedCount(s, Some(p.stuckClass), p.stickyClass);
    ToggleRemovedCount(s, Some(p.stickyClass), p.stuckClass);
  }

  /**
    Entering `sticky` (from default or stuck, strictly inside the range): the
    sticky class is added, the stuck class removed, the element takes the
    resolved position, and unless styles are off the bottom is cleared, the
    sticky edge gets the offset and, for fixed positioning, the parent padding
    reserves the element's height.
  */
  lemma EnteringSticky(it: Instance, scroll: int, clientHeight: int)
    requires it.state != Sticky
    requires it.offsets.stickyStart < scroll < it.offsets.stickyStop
    requires WellFormed(it) && it.props.stickyClass != it.props.stuckClass
    requires Count(it.el.className, it.props.stuckClass) <= 1
    ensures var r := ApplyTransition(it, scroll, clientHeight);
            var p := it.props;
            && r.state == Sticky
            && p.stickyClass in Split(r.el.className)
            && p.stuckClass !in Split(r.el.className)
            && (p.noStyles || p.verticalPosition != "position" ==> StyleOf(r.el.style, "position") == p.positionVal)
            && (!p.noStyles ==> StyleOf(r.el.style, p.verticalPosition) == Px(p.stickyBitStickyOffset))
            && (!p.noStyles && p.verticalPosition != "bottom" ==> StyleOf(r.el.style, "bottom") == "")
            && (!p.noStyles && p.positionVal == "fixed" ==> StyleOf(r.parent.style, p.paddingPosition) == Px(clientHeight))
            && (p.noStyles ==> SameExcept(it.el.style, r.el.style, {"position"}) && r.parent == it.parent)
  {
    assert ApplyTransition(it, scroll, clientHeight) == EnterSticky(it, clientHeight);
    StickyClassEffect(it.el.className, it.props);
  }

  /**
    Leaving `sticky` upwards: the sticky class goes, the parent padding is
    cleared, and the inline position is cleared only under fixed positioning.
  */
  lemma EnteringDefault(it: Instance, scroll: int, clientHeight: int)
    requires it.state == Sticky
    requires scroll <= it.offsets.stickyStart
    requires Count(it.el.className, it.props.stickyClass) <= 1 && it.props.stickyClass != ""
    ensures var r := ApplyTransition(it, scroll, clientHeight);
            var p := it.props;
            && r.state == Default
            && p.stickyClass !in Split(r.el.className)
            && StyleOf(r.parent.style, p.paddingPosition) == ""
            && (p.positionVal == "fixed" ==> StyleOf(r.el.style, "position") == "")
            && SameExcept(it.el.style, r.el.style, {"position"})
            && (p.positionVal != "fixed" ==> r.el.style == it.el.style)
  {
    assert ApplyTransition(it, scroll, clientHeight) == EnterDefault(it);
    ToggleRemovedCount(it.el.className, None, it.props.stickyClass);
  }

  /** The class effect of `tC(e, sticky, stuck)`. */
  lemma StuckClassEffect(s: string, p: Props)
    requires ValidToken(p.stickyClass) && ValidToken(p.stuckClass) && p.stickyClass != p.stuckClass
    requires Count(s, p.stickyClass) <= 1
    ensures p.stuckClass in Split(ToggleClasses(s, Some(p.stickyClass), Some(p.stuckClass)))
    ensures p.stickyClass !in Split(ToggleClasses(s, Some(p.stickyClass), Some(p.stuckClass)))
  {
    ToggleAddedCount(s, Some(p.stickyClass), p.stuckClass);
    ToggleRemovedCount(s, Some(p.stuckClass), p.stickyClass);
  }

  /**
    Leaving `sticky` downwards: the sticky class goes and the stuck class comes;
    with fixed positioning and styles on, the element is pinned to the parent's
    bottom (`top` cleared, `bottom: 0`, `position: absolute`) and the parent
    padding keeps its height; otherwise no style changes.
  */
  lemma EnteringStuck(it: Instance, scroll: int, clientHeight: int)
    requires it.state == Sticky
    requires it.offsets.stickyStart < scroll && scroll >= it.offsets.stickyStop
    requires WellFormed(it) && it.props.stickyClass != it.props.stuckClass
    requires Count(it.el.className, it.props.stickyClass) <= 1
    ensures var r := ApplyTransition(it, scroll, clientHeight);
            var p := it.props;
            && r.state == Stuck
            && p.stuckClass in Split(r.el.className)
            && p.stickyClass !in Split(r.el.className)
            && (p.positionVal == "fixed" && !p.noStyles ==>
                  && StyleOf(r.el.style, "top") == ""
                  && StyleOf(r.el.style, "bottom") == "0"
                  && StyleOf(r.el.style, "position") == "absolute"
                  && StyleOf(r.parent.style, p.paddingPosition) == Px(clientHeight))
            && (p.positionVal != "fixed" || p.noStyles ==> r.el.style == it.el.style && r.parent == it.parent)
  {
    assert ApplyTransition(it, scroll, clientHeight) == EnterStuck(it, clientHeight);
    StuckClassEffect(it.el.className, it.props);
  }

  /** The classes `manageState` adds or removes on the element. */
  function ManagedClasses(p: Props, mods: seq<Modifier>): set<string>
  {
    {p.stickyClass, p.stuckClass} + set i | 0 <= i < |mods| :: mods[i].cls
  }

  /** One modifier step leaves every unmanaged class in place and in order. */
  lemma ModifierKeepsUnmanaged(s: string, m: Modifier, scroll: int, managed: set<string>)
    requires ValidToken(m.cls) && m.cls in managed
    ensures Unmanaged(Split(ToggleModifier(s, m, scroll)), managed) == Unmanaged(Split(s), managed)
  {
    if scroll >= m.threshold {
      ToggleKeepsUnmanaged(s, None, Some(m.cls), managed);
    } else {
      ToggleKeepsUnmanaged(s, Some(m.cls), None, managed);
    }
  }

  /** The modifier loop leaves every class it does not manage in place and in order. */
  lemma {:induction false} ModifiersKeepUnmanaged(s: string, mods: seq<Modifier>, scroll: int, managed: set<string>)
    requires ValidNames(mods)
    requires forall i :: 0 <= i < |mods| ==> mods[i].cls in managed
    ensures Unmanaged(Split(ApplyModifiers(s, mods, scroll)), managed) == Unmanaged(Split(s), managed)
    decreases |mods|
  {
    if |mods| > 0 {
      ModifierKeepsUnmanaged(s, mods[0], scroll, managed);
      ModifiersKeepUnmanaged(ToggleModifier(s, mods[0], scroll), mods[1..], scroll, managed);
    }
  }

  /** `manageState` leaves every class other than the sticky, stuck and modifier classes untouched and in order. */
  lemma ManageStateKeepsUnmanaged(it: Instance, scroll: int, clientHeight: int, managed: set<string>)
    requires WellFormed(it)
    requires ManagedClasses(it.props, it.offsets.modifiers) <= managed
    ensures Unmanaged(Split(ManageState(it, scroll, clientHeight).el.className), managed)
            == Unmanaged(Split(it.el.className), managed)
  {
    var p := it.props;
    var s := it.el.className;
    var mods := it.offsets.modifiers;
    assert p.stickyClass in managed && p.stuckClass in managed;
    forall i | 0 <= i < |mods| ensures mods[i].cls in managed {
      assert mods[i].cls in ManagedClasses(p, mods);
    }
    var t := ApplyTransition(it, scroll, clientHeight);
    if t.state == it.state {
    } else if t.state == Sticky {
      ToggleKeepsUnmanaged(s, Some(p.stuckClass), Some(p.stickyClass), managed);
    } else if t.state == Default {
      ToggleKeepsUnmanaged(s, Some(p.stickyClass), None, managed);
    } else {
      ToggleKeepsUnmanaged(s, Some(p.stickyClass), Some(p.stuckClass), managed);
    }
    ModifiersKeepUnmanaged(t.el.className, mods, scroll, managed);
  }
}
